=== FILE: README.md ===
# spotMeBro — a Dafny model of the lift-logging dialog

spotMeBro is a Telegram bot for logging gym lifts and asking a language model for workout
suggestions. This project models its core:

- the `/track` dialog. A free-text description is sent to the model. The answer is reduced to
  the complete lifts it holds. If there are none, the dialog asks for each missing slot
  (exercise, sets, reps, weight) in turn, shows a confirmation and saves one record per
  candidate lift;
- the follow-up mode of `/recommend`. While the mode is on, a plain text message refines the
  last recommendation. Every other command ends the mode;
- the clean-up of the model's answers, and the inputs of the recommendation calls: the
  history window, the goal placeholder and the base sentence;
- the start-up configuration check.

Each handler is a pure step function from `user_data` and its inputs to an `Outcome`. An
`Outcome` is:

- the new `user_data`;
- what the handler returns: a conversation state, `None`, or an exception;
- the replies sent, as tags;
- the storage writes issued.

The language model, `json.loads`, the grammars of Python's `int(str)` and `float(str)`, and
the storage reads are parameters.

Modules:

- `Options`, `Text` (Python string operations), `Json` (decoded values and `int()`/`float()`
  on them) and `Filtering`: the helpers.
- `Lifts`: the validator and filter.
- `Llm`: llm.py.
- `Config`: config.py.
- `Session`: the `user_data` record, the states, replies and writes.
- `Track`: the `/track` handlers and the dialog invariant.
- `TrackScenarios`: worked runs of the dialog.
- `Commands`: the other handlers, the follow-up flag and the dispatch of bot.py:51-56.

Where the code and its description differ, the model follows the code:

- `lift_history[-20:]` is modelled as written. `get_user_lifts` returns rows newest first, so
  the window holds the *oldest* twenty of the fetched rows, not the most recent twenty
  (`Llm.WindowOmitsNewest`).
- While a `/track` dialog is open, `/cancel`, `/recommend` and `/view` go to the
  conversation's fallbacks. Only `cancel` returns `END`. `recommend` and `view` return `None`,
  which leaves the dialog in its state: they do not abort it. `/start`, `/help`, `/setgoal`
  and `/setunit` are registered before the conversation, so its fallbacks for them never run.
  `Commands.CommandsKeepDialog` shows that these handlers keep the dialog's invariant.
- Seeded values are never range-checked (handlers.py:153-161). A seeded `sets = 0` with a
  name given later is saved as it stands (`TrackScenarios.ZeroSetsSaved`).
- When all four slots are seeded but the validator rejected the item, `missing` is empty and
  `missing[0]` raises. This is the explicit fault `MissingFieldIndex` (`Track.TrackInputFault`).

## Model

| member | source | states |
|---|---|---|
| Text.Strip | handlers.py:130 | `str.strip()`: the result is trimmed and no longer than the input, and a trimmed input is kept unchanged |
| Text.StripEmpty | handlers.py:101 | `strip()` gives the empty string exactly for an all-whitespace input |
| Text.StripPadded | config.py:8-9 | whitespace around a trimmed value is removed exactly |
| Text.LowerChar | handlers.py:67 | `lower()` on one character: an ASCII capital becomes its small letter, the Kelvin sign becomes `k`, any other character is kept |
| Text.Lower | handlers.py:67 | `lower()`: same length, each character lowered as `LowerChar` does |
| Text.LowerSpells | handlers.py:67 | a string lowers to a lower-case ASCII word exactly when it spells that word letter by letter in either case, with the Kelvin sign also standing for `k` |
| Text.JoinSpaced | handlers.py:80 | `" ".join(args)`: empty for no arguments, the argument itself for one, and it always starts with the first argument |
| Text.JoinSpacedAppend | handlers.py:80 | joining two non-empty runs of arguments in one go is joining each and putting one space between |
| Json.Trunc | handlers.py:104 | `int()` on a float rounds toward zero: at most one away from the value, and on the same side of zero |
| Json.PyInt | handlers.py:104-105 | `int(v)` on a decoded value; it has no contract of its own, and `Json.ConversionShapes` and `Json.IntIsTruncatedFloat` state what it does |
| Json.PyFloat | handlers.py:106 | `float(v)` on a decoded value; it has no contract of its own, and `Json.ConversionShapes` and `Json.IntIsTruncatedFloat` state what it does |
| Json.ConversionShapes | handlers.py:104-106 | `None`, a list or a dict fail both conversions; a bool, an int or a float pass both, an int as itself, a bool as 0 or 1; a string goes through the `int(str)` and `float(str)` grammars |
| Json.IntIsTruncatedFloat | handlers.py:104-106 | off strings, `int(v)` succeeds exactly when `float(v)` does, and is `float(v)` rounded toward zero |
| Lifts.ParseSingleLift | handlers.py:95-113 | accepts an item exactly when it is a dict with a non-blank string `exercise` and `sets`/`reps`/`weight` that convert and lie in [1,100], [1,100], (0,2000]; the lift carries the stripped name and converted numbers and is complete |
| Lifts.Items | handlers.py:118-120 | the items the loop walks; it has no contract of its own, and `Lifts.ItemsShape` states its shape |
| Lifts.ItemsShape | handlers.py:118-120 | no items exactly for a falsy value; a list gives its elements, any other truthy value itself alone |
| Lifts.ExerciseNameNotBlank | handlers.py:101-102 | an item has a name exactly when its `exercise` is a string that is not all whitespace |
| Lifts.ExtractCompleteLifts | handlers.py:116-126 | `[]` on a falsy input; a non-list counts as a one-item list; the result is no longer than the items, every lift in it is complete, and it is empty exactly when every item is rejected |
| Lifts.ExtractConcat | handlers.py:121-126 | the loop keeps order: extracting from a concatenation is extracting from each part in turn |
| Lifts.ExtractMembers | handlers.py:121-126 | a lift is extracted exactly when some item is accepted as that lift |
| Lifts.NothingExtractedRejectsFirst | handlers.py:116-126 | when nothing is extracted from a non-empty list, its first item was rejected |
| Lifts.ExtractKeepsAll | handlers.py:120-126 | the extraction loses no item exactly when every item is accepted |
| Lifts.ExtractPosition | handlers.py:122-125 | an accepted item's lift comes right after the lifts of the items before it |
| Llm.UpToFence | llm.py:35 | `split("```")[1]`'s cut: a prefix of the text containing no fence, ending at the first fence or at the end |
| Llm.CleanAnswer | llm.py:33-37 | an answer that does not open with a fence is only stripped; otherwise what is left holds no fence; never longer than the answer |
| Llm.CleanText | llm.py:34-37 | text without an opening fence is kept; otherwise the piece holds no fence and is shorter than the text by at least the opening fence |
| Llm.FencedAnswerRoundTrip | llm.py:33-35 | a fenced, backtick-free body is given back exactly |
| Llm.TaggedAnswerRoundTrip | llm.py:33-37 | a fenced body with a leading `json` tag is given back without the tag |
| Llm.TaggedText | llm.py:34-37 | the fence cut and the tag cut of a fenced, `json`-tagged, backtick-free body give that body |
| Llm.UnfencedAnswer | llm.py:33-34 | an answer that does not open with a fence is only stripped |
| Llm.AsItemList | llm.py:39-43 | a list as it is, an object as a one-element list, anything else as nothing |
| Llm.ParseLiftText | llm.py:23-45 | never raises: a failed call or an undecodable answer gives `[]`, otherwise the decoded answer shaped as a list |
| Llm.HistoryWindow | llm.py:53 | `[-20:]`: the last min(n, 20) entries |
| Llm.WindowOmitsNewest | llm.py:53 | with more than twenty newest-first rows, the rows left out are at least as new as every row in the window, no row in the window is newer than the first, and a strictly newest first row is left out |
| Llm.HistoryPart | llm.py:53 | the placeholder exactly for an empty history, otherwise the last min(n, 20) rows of the history |
| Llm.GoalPart | llm.py:57 | a missing or empty goal reads "Not set", any other goal is used as it is |
| Llm.BasePart | llm.py:54 | the request's base sentence exactly for a non-empty request, carrying that request |
| Llm.ReplyText | llm.py:66-68 | the stripped answer, or the error template followed by the failure |
| Llm.Recommend | llm.py:48-68 | never raises: the stripped answer to the recommendation request, or the error template |
| Llm.Refine | llm.py:71-94 | never raises: the stripped answer to the refinement request, or the error template |
| Llm.RequestShapes | llm.py:48-94 | both prompts show the no-past-lifts text exactly for an empty history and otherwise its last min(n, 20) rows, and the goal placeholder exactly for a missing or empty goal, at temperature 0.7; the recommendation's base sentence is the request sentence exactly when there is a non-empty request, and then carries that request verbatim; the refinement carries the previous text and feedback verbatim; extraction runs at temperature 0 |
| Llm.RecommendRequest | llm.py:48-65 | the recommendation call; it has no contract of its own, and `Llm.RequestShapes` states what it embeds |
| Llm.RefineRequest | llm.py:71-91 | the refinement call; it has no contract of its own, and `Llm.RequestShapes` states what it embeds |
| Config.Setting | config.py:8-9 | an unset variable reads as `""`, a set one stripped; the value is trimmed |
| Config.ValidateConfig | config.py:12-20 | valid exactly when the URL starts with `https://` and the key is non-empty; the URL error exactly when the URL does not start so; the key error exactly when the URL is fine and the key empty |
| Config.EmptyUrlRejected | config.py:14-18 | an empty or unset URL is rejected whatever the key |
| Config.UrlCheckedFirst | config.py:14-20 | with both values bad, the URL error is reported |
| Config.PaddingIgnored | config.py:8-20 | whitespace before and after either environment value, in any amount, does not change the verdict |
| Track.FillState | handlers.py:180-181 | `_get_fill_state`: every slot has a filling state, never waiting, confirming or ended |
| Track.FillStateBijective | handlers.py:180-181 | distinct slots have distinct filling states, and each filling state names its slot back |
| Track.Store | handlers.py:213 | storing a value sets its slot and leaves the other three alone |
| Track.MissingAmong | handlers.py:163-171 | the unfilled slots of a given ordered list, in its order |
| Track.Missing | handlers.py:163-171 | `missing` holds exactly the unfilled slots (empty name, or `None` number), in dialog order |
| Track.OrderedUnique | handlers.py:163-171 | two lists in dialog order with the same members are equal, so `missing` is determined by its members |
| Track.MissingExactly | handlers.py:163-171 | any list in dialog order holding exactly the unfilled slots is `missing` |
| Track.Coerce | handlers.py:154-159 | the conversion of a seeded value yields an entry for that slot |
| Track.SeedStep | handlers.py:156-161 | one loop turn: a `None` value is skipped, a convertible one stored, a failing one ends seeding; other slots are untouched |
| Track.SeedName | handlers.py:154-155 | a string exercise is stored stripped, anything else leaves the slots as they were; the numbers are untouched |
| Track.SeedNumbers | handlers.py:156-161 | the loop over `sets`, `reps`, `weight`: each is seeded only while every earlier one passed; the name is untouched |
| Track.Seed | handlers.py:151-161 | a string exercise is stored stripped; each number is seeded only while every earlier number passed; a non-dict first item seeds nothing |
| Track.SeedStopsAtFailure | handlers.py:153-161 | an unconvertible `sets` stops seeding of reps and weight too |
| Track.SeedNamePresent | handlers.py:154-155 | after seeding, the name is filled exactly when the item has a non-blank string name |
| Track.SeedNumbersPresent | handlers.py:156-161 | after seeding, the three numbers are filled exactly when all three convert |
| Track.SeedFillsAll | handlers.py:151-171 | all four slots are seeded exactly when the item is a dict with a name and three convertible numbers |
| Track.ShowConfirmation | handlers.py:229-249 | the question counts the waiting candidates when there are any, and one otherwise; nothing is stored; the state is confirming |
| Track.AskFirstMissing | handlers.py:163-177 | `missing` is the unfilled slots in order, the cursor is zero, the first missing slot is asked for, and an empty `missing` raises |
| Track.TrackInput | handlers.py:129-177 | with complete lifts, they wait for confirmation and no slot, `missing` or cursor is touched; otherwise the slots are reset and seeded from the first item, and `missing` is computed and asked for; the follow-up keys are kept |
| Track.TrackInputFault | handlers.py:163-175 | `missing[0]` raises exactly when nothing was extracted although the first item is a dict with a name and convertible numbers, which then lie out of range |
| Track.ParseFill | handlers.py:184-197 | the answer yields an entry for its own slot, and the exercise answer is the stripped text; `Track.ParseFillNumbers` and `Track.ParseFillAsSeed` state the numeric parse |
| Track.ParseFillAsSeed | handlers.py:184-197 | a typed answer converts exactly as the seeding conversion of handlers.py:154-159 converts the stripped text |
| Track.ParseFillNumbers | handlers.py:188-197 | a count is accepted exactly when `int` parses the stripped text and stores that number; a weight exactly when `float` parses it and stores that value |
| Track.CheckFill | handlers.py:202-217 | accepted exactly when the answer parses and is in range; a parse failure gets the generic reply with the slot's hint, a range failure the slot's own reply |
| Track.BlankNameReply | handlers.py:202-204 | a blank name is rejected with the invalid-exercise reply |
| Track.CountRangeReply | handlers.py:205-207 | a sets or reps answer that parses to a count outside [1, 100] is rejected with the invalid-sets/reps reply |
| Track.WeightRangeReply | handlers.py:208-210 | a weight answer that parses to a value outside (0, 2000] is rejected with the invalid-weight reply |
| Track.CheckedMeansValid | handlers.py:202-217 | the code's tests on a parsed answer accept exactly the valid entries: a non-empty name, counts in [1,100], a weight in (0,2000] |
| Track.FillField | handlers.py:200-226 | a rejected answer changes nothing and asks again; an accepted one sets its slot only, advances the cursor by one, and asks for the next missing slot or shows the confirmation question with its count |
| Track.SaveAll | handlers.py:266-267 | one insert per candidate, in order |
| Track.ConfirmButton | handlers.py:252-286 | cancel clears and ends with no write; otherwise one insert per waiting candidate, or the one manual lift; the multi-save reply with the count exactly for more than one, the single-save reply with the lift for one; then cleared and waiting again; raises only for an unfilled manual lift |
| Track.TrackInputEstablishes | handlers.py:129-177 | `track_input` leads into a state whose invariant holds |
| Track.FirstMissingFilling | handlers.py:163-177 | with the cursor at zero and `missing` listing exactly the unfilled slots in order, the dialog is filling its first slot |
| Track.AcceptKeepsFilling | handlers.py:213-226 | storing an accepted value and advancing the cursor keeps the invariant of the next slot, or makes the lift complete |
| Track.FillPreserves | handlers.py:200-226 | under the invariant, filling never raises and keeps the invariant |
| Track.ConfirmNeverFaults | handlers.py:264-279 | at a confirmation reached under the invariant, saving never raises |
| Track.ConfirmCountMatchesInserts | handlers.py:229-279 | the count in the question is the number of records saved |
| TrackScenarios.SingleItemExtracted | handlers.py:116-126 | a one-item answer yields that item's lift, or nothing if it is rejected |
| TrackScenarios.CompleteAnswerConfirms | handlers.py:141-143 | one complete lift goes straight to the confirmation, counting one |
| TrackScenarios.SeedNameOnly | handlers.py:154-155 | a name-only item seeds the name alone |
| TrackScenarios.SeedNumbersOnly | handlers.py:156-159 | a nameless item with three convertible numbers seeds exactly those numbers |
| TrackScenarios.SeedEmpty | handlers.py:151-152 | the empty object seeds nothing |
| TrackScenarios.NumbersMissing | handlers.py:163-171 | with only a name, sets, reps and weight are missing, in that order |
| TrackScenarios.NameMissing | handlers.py:163-171 | with only the numbers, the name alone is missing |
| TrackScenarios.AllMissing | handlers.py:163-171 | with nothing filled, all four slots are missing in dialog order |
| TrackScenarios.FallbackAsks | handlers.py:145-177 | when nothing is extracted, the slots are those seeded from the first item and the first missing one is asked for |
| TrackScenarios.NameOnlyParsed | handlers.py:116-151 | a name-only answer yields no lift, and its item is the one seeded from |
| TrackScenarios.NameOnlyAsksForNumbers | handlers.py:151-177 | a name-only answer asks for sets first, with reps and weight still to come |
| TrackScenarios.EmptyAnswerParsed | handlers.py:134-151 | an empty answer yields no lift and seeds from the empty object |
| TrackScenarios.EmptyAnswerAsksForEverything | handlers.py:163-177 | an empty answer asks for all four slots, the exercise first |
| TrackScenarios.ZeroSetsRaises | handlers.py:175 | a full item with zero sets makes `missing[0]` raise |
| TrackScenarios.AskedForNameOnly | handlers.py:151-177 | a nameless item with convertible numbers asks only for the name |
| TrackScenarios.NameCompletesManualLift | handlers.py:200-279 | with only the name missing, giving it confirms, and saving writes the lift as it stands |
| TrackScenarios.UncheckedSeedIsSaved | handlers.py:153-161 | seeded numbers are saved without any range check once the name is given |
| TrackScenarios.ZeroSetsSaved | handlers.py:156-159 | a seeded `sets = 0` is saved, although the validator rejects that lift |
| Commands.StartCommand | handlers.py:49-53 | the follow-up mode ends and nothing else in `user_data` changes; the user row is ensured |
| Commands.HelpCommand | handlers.py:56-60 | as `start`, with the help text |
| Commands.SetUnitCommand | handlers.py:63-72 | the lower-cased first argument is stored exactly when it is `lbs` or `kg`; otherwise only the usage is shown; the follow-up mode ends |
| Commands.KelvinUnitAccepted | handlers.py:67-69 | `/setunit` with the Kelvin sign and `G` stores `kg` |
| Commands.SetGoalCommand | handlers.py:75-84 | with arguments, their space-joined text is stored and echoed; without, the example is shown; the follow-up mode ends |
| Commands.TrackStart | handlers.py:87-92 | all of `user_data` is cleared, the follow-up mode included, and the dialog waits for input |
| Commands.CancelCommand | handlers.py:365-368 | all of `user_data` is cleared and the conversation ends, with no write |
| Commands.UserRequest | handlers.py:300 | no arguments give `None`, otherwise the stripped joined text |
| Commands.RecommendCommand | handlers.py:297-311 | the mode starts, and the recommendation is remembered with the goal and history it was made from, and sent between the loading notice and the invitation; the dialog keys are kept |
| Commands.Followup | handlers.py:348-362 | outside the mode, or for a blank message, nothing happens; otherwise only the last recommendation changes, to the refinement of it with the stripped message |
| Commands.ShownListing | handlers.py:342-345 | never longer than 4000 characters; kept when it fits; otherwise its first 3997 characters and `...`; "No lifts." for a blank listing |
| Commands.ViewCommand | handlers.py:314-345 | the follow-up mode ends; the empty notice exactly when there are no lifts, otherwise the one reply is the shown listing of the joined lines, within the limit |
| Commands.Route | bot.py:51-56 | text reaches `track_input` while waiting and the slot's fill handler while filling; a button reaches `track_confirm_button` at the confirmation; nothing else has a state handler |
| Commands.Handle | bot.py:48-77 | runs the handler a call names: only `track_input` and the confirm button can raise, and exactly `start`, `help`, `setunit`, `setgoal`, `recommend`, `view` and the follow-up router return `None` |
| Commands.HandleDialog | bot.py:51-56 | the three `/track` state handlers never return `None`, and filling never raises |
| Commands.HandleCommand | bot.py:49-77 | the command handlers and the follow-up router never raise, and all but `track_start` and `cancel` return `None` |
| Commands.WaitingStepSound | handlers.py:129-177 | text while waiting runs `track_input`, which leads into a state whose invariant holds, or raises the `missing[0]` failure |
| Commands.FillingStepSound | handlers.py:200-226 | text while filling a slot, under its invariant, keeps the invariant and never raises |
| Commands.ConfirmingStepSound | handlers.py:252-286 | a button at the confirmation, under its invariant, keeps the invariant and never raises |
| Commands.RoutePreserves | bot.py:51-56 | through every state handler the dialog invariant holds, and only `track_input` can raise, with the `missing[0]` failure |
| Commands.FlagSetOnlyByRecommend | handlers.py:307 | no handler but `recommend` turns the follow-up mode on |
| Commands.FlagClearedBy | handlers.py:49-92 | `start`, `help`, `setunit`, `setgoal`, `track_start`, `view`, `cancel` and a completed button press leave the mode off |
| Commands.FollowupAfterClearIsInert | handlers.py:348-351 | after any of the clearing commands, a follow-up message changes nothing and sends nothing |
| Commands.RecommendThenRefine | handlers.py:297-362 | right after `/recommend`, a non-blank reply refines the recommendation just made, with its goal and history, and the mode stays on |
| Commands.CommandsKeepDialog | handlers.py:49-362 | `start`, `help`, `setunit`, `setgoal` (49-84), `recommend`, `view` and a follow-up message (297-362), which touch only the follow-up keys, return `None` and keep the dialog's invariant for whatever state it is in |
| Commands.StoredUnitsKnown | handlers.py:67-69 | every unit any handler stores is `lbs` or `kg` |

## Left out

- Telegram transport, the `async` machinery and the `ConversationHandler` wiring of bot.py,
  apart from the per-state handler map of bot.py:51-56. The per-state map is `Commands.Route`.
  What the library does with a returned `None` or with an exception is not modelled.
- The storage layer (db.py). Reads (`get_user_goal`, `get_user_lifts`, `get_user_unit`) are
  inputs. Writes are an abstract log of `EnsureUser`, `InsertLift`, `SetGoal` and `SetUnit`
  entries. The username and first name passed to `ensure_user` are not recorded.
- The Groq client and `json.loads`/`json.dumps`. They are the opaque `Model` and `Decoder`.
  The construction of the client (`_get_client()`) sits outside the `try` blocks of llm.py.
  It is assumed not to fail.
- The prompt texts of prompts.py. Replies and prompts are tags or records of their parts.
- `_format_weight`, `_format_lift` and the kg conversion. They are floating-point display.
- Commands.ViewCommand: `view`'s date grouping and line formatting rely on
  `datetime.fromisoformat`/`strftime`. The joined lines are an input, and only the
  stripping, the 4000-character cut and the empty fallback are modelled.
- `_serialize_history`, which is ISO date formatting. The history rows are passed through as
  they are.
- Track.ShowConfirmation: states the count and the state only. The summary text is
  formatting. The manual branch reads the four slots with `data[...]`, which could raise
  `KeyError`, but the dialog only gets there with all four filled (`Track.FillPreserves`).
- Floating point: weights are `real`, so NaN and infinities are not modelled. In Python
  `float("nan")` would pass the weight range checks, because every comparison with NaN is
  false.
- Text.Lower: lowers the ASCII capitals and the Kelvin sign only. Python's `str.lower` also
  lowers other non-ASCII letters, to letters outside ASCII, and U+0130 to `i` followed by a
  combining dot, which lengthens the string. None of these can take part in spelling `lbs`
  or `kg`, so `/setunit` accepts the same arguments.
- The literal grammars of `int(str)` and `float(str)` (for example `int("07")`, `float("1e3")`)
  are abstract partial functions.
- Json.PyInt: `int()` of an infinite float raises `OverflowError` in Python. `json.loads`
  reads `1e400` and `Infinity` as infinite floats. The model has no infinite reals, so the
  conversion always succeeds.
- Json.PyFloat: `float()` of an integer beyond about 1.8e308 raises `OverflowError` in Python.
  The model's conversion always succeeds.
- These overflows are not caught by the `except` clauses of handlers.py:107, 138 or 160. So
  `_extract_complete_lifts` and the seeding of `track_input` can raise on such numbers, and
  the model does not show that. Apart from that, neither `parse_lift_text` nor
  `_extract_complete_lifts` raises (`Llm.ParseLiftText`, `Lifts.ExtractCompleteLifts`). The
  `except` of handlers.py:138 is therefore not modelled.
- Track.ConfirmButton: a manual save with a slot that was never filled is the fault
  `UnfilledField`. Python would either raise `KeyError` for an absent key or pass `None` on
  to `insert_lift`. `Track.ConfirmNeverFaults` shows that the dialog never reaches this case.
- `TELEGRAM_BOT_TOKEN` and `GROQ_API_KEY`, which are read but never checked.

=== FILE: commands.dfy ===
/**
 The command handlers outside the `/track` slot dialog (handlers.py:49-92, 297-368),
 the recommendation follow-up router, and the per-state dispatch of the `/track`
 conversation (bot.py:51-56). Storage reads are parameters, LLM calls go through the
 opaque `Model`, and every handler is a step function over `user_data`.
 */
module Commands {
  import opened Options
  import opened Text
  import opened Json
  import opened Lifts
  import opened Llm
  import opened Session
  import opened Track

  /** What the storage and the model hand back during one update. */
  datatype World = World(
    userId: int,
    env: Env,                    // the language model, `json.loads` and the number grammars
    goal: Option<string>,        // `get_user_goal`
    history: seq<HistoryRow>,    // `get_user_lifts`, newest first
    listing: string)             // the joined lines `view` formats from that history

  // ---------------------------------------------------------------- plain commands

  /** `start` (handlers.py:49-53): the follow-up mode ends and the welcome is sent; nothing else changes. */
  function StartCommand(ud: UserData, userId: int): (r: Outcome)
    ensures r.data == ud.(followup := false)
    ensures r.result == ReturnedNone && r.replies == [StartMessage] && r.writes == [EnsureUser(userId)]
  {
    Outcome(ud.(followup := false), ReturnedNone, [StartMessage], [EnsureUser(userId)])
  }

  /** `help_command` (handlers.py:56-60): as `start`, with the help text. */
  function HelpCommand(ud: UserData, userId: int): (r: Outcome)
    ensures r.data == ud.(followup := false)
    ensures r.result == ReturnedNone && r.replies == [HelpMessage] && r.writes == [EnsureUser(userId)]
  {
    Outcome(ud.(followup := false), ReturnedNone, [HelpMessage], [EnsureUser(userId)])
  }

  /** The two units `/setunit` accepts. */
  predicate KnownUnit(u: string) {
    u == "lbs" || u == "kg"
  }

  /**
   `setunit_command` (handlers.py:63-72): the first argument, lower-cased, is stored when it
   names a known unit; otherwise the usage is shown and nothing but the user row is written.
   */
  function SetUnitCommand(ud: UserData, userId: int, args: seq<string>): (r: Outcome)
    ensures r.data == ud.(followup := false) && r.result == ReturnedNone
    ensures |r.writes| >= 1 && r.writes[0] == EnsureUser(userId)
    ensures |r.writes| == 2 <==> args != [] && KnownUnit(Lower(args[0]))
    ensures |r.writes| == 2 ==>
              && r.writes[1] == SetUnit(userId, Lower(args[0]))
              && r.replies == [UnitUpdated(Lower(args[0]))]
    ensures |r.writes| == 1 ==> r.replies == [UnitUsage]
    ensures |r.writes| <= 2
  {
    var data := ud.(followup := false);
    if args != [] && KnownUnit(Lower(args[0])) then
      var unit := Lower(args[0]);
      Outcome(data, ReturnedNone, [UnitUpdated(unit)], [EnsureUser(userId), SetUnit(userId, unit)])
    else Outcome(data, ReturnedNone, [UnitUsage], [EnsureUser(userId)])
  }

  /** `/setunit` with the Kelvin sign for `K` is taken as `kg`, since Python lowers that sign to `k`. */
  lemma KelvinUnitAccepted(ud: UserData, userId: int)
    ensures var r := SetUnitCommand(ud, userId, [[KelvinSign, 'G']]);
            |r.writes| == 2 && r.writes[1] == SetUnit(userId, "kg")
  {
    LowerSpells([KelvinSign, 'G'], "kg");
  }

  /**
   `setgoal_command` (handlers.py:75-84): with arguments, their space-joined text becomes the
   goal; without, the example is shown.
   */
  function SetGoalCommand(ud: UserData, userId: int, args: seq<string>): (r: Outcome)
    ensures r.data == ud.(followup := false) && r.result == ReturnedNone
    ensures |r.writes| >= 1 && r.writes[0] == EnsureUser(userId) && |r.writes| <= 2
    ensures |r.writes| == 2 <==> args != []
    ensures args != [] ==>
              && r.writes[1] == SetGoal(userId, JoinSpaced(args))
              && StartsWith(r.writes[1].goal, args[0])
              && r.replies == [GoalUpdated(JoinSpaced(args))]
    ensures args == [] ==> r.replies == [GoalExample]
  {
    var data := ud.(followup := false);
    if args != [] then
      var goal := JoinSpaced(args);
      Outcome(data, ReturnedNone, [GoalUpdated(goal)], [EnsureUser(userId), SetGoal(userId, goal)])
    else Outcome(data, ReturnedNone, [GoalExample], [EnsureUser(userId)])
  }

  /** `track_start` (handlers.py:87-92): the whole of `user_data` is cleared and the dialog waits for a description. */
  function TrackStart(userId: int): (r: Outcome)
    ensures r.data == Cleared && !r.data.followup
    ensures r.result == Returned(WaitingInput) && r.replies == [TrackStartPrompt] && r.writes == [EnsureUser(userId)]
  {
    Outcome(Cleared, Returned(WaitingInput), [TrackStartPrompt], [EnsureUser(userId)])
  }

  /** `cancel` (handlers.py:365-368): everything is cleared and the conversation ends, with no write. */
  function CancelCommand(): (r: Outcome)
    ensures r.data == Cleared && !r.data.followup
    ensures r.result == Returned(End) && r.replies == [CancelMessage] && r.writes == []
  {
    Outcome(Cleared, Returned(End), [CancelMessage], [])
  }

  // ---------------------------------------------------------------- /recommend and its follow-up

  /** The request text `/recommend` passes on: the stripped, space-joined arguments, or `None` without any. */
  function UserRequest(args: seq<string>): (r: Option<string>)
    ensures r.None? <==> args == []
    ensures r.Some? ==> r.value == Strip(JoinSpaced(args)) && Trimmed(r.value)
  {
    if args != [] then Some(Strip(JoinSpaced(args))) else None
  }

  /**
   `recommend` (handlers.py:297-311): the recommendation is asked for, sent between the
   loading notice and the refine invitation, and remembered with the goal and history it
   was made from; the follow-up mode starts. The `/track` keys are left alone.
   */
  function RecommendCommand(ud: UserData, args: seq<string>, w: World): (r: Outcome)
    ensures r.data.followup
    ensures r.data == ud.(followup := true, recGoal := w.goal, recHistory := w.history, lastRec := r.data.lastRec)
    ensures r.data.lastRec == Llm.Recommend(w.env.model, w.goal, w.history, UserRequest(args))
    ensures r.replies == [RecommendLoading, RecommendationText(r.data.lastRec), RefineInvite]
    ensures r.result == ReturnedNone && r.writes == [EnsureUser(w.userId)]
  {
    var rec := Llm.Recommend(w.env.model, w.goal, w.history, UserRequest(args));
    Outcome(ud.(followup := true, recGoal := w.goal, recHistory := w.history, lastRec := rec),
            ReturnedNone, [RecommendLoading, RecommendationText(rec), RefineInvite], [EnsureUser(w.userId)])
  }

  /**
   `recommend_followup` (handlers.py:348-362): outside the follow-up mode, or for a blank
   message, nothing happens; otherwise the remembered recommendation is refined with the
   stripped message and replaced, and nothing else in `user_data` changes.
   */
  function Followup(ud: UserData, message: string, model: Model): (r: Outcome)
    ensures r.result == ReturnedNone && r.writes == []
    ensures r.data == ud.(lastRec := r.data.lastRec)
    ensures !ud.followup || Blank(message) ==> r.data == ud && r.replies == []
    ensures ud.followup && !Blank(message) ==>
              && r.data.lastRec == Llm.Refine(model, ud.recGoal, ud.recHistory, ud.lastRec, Strip(message))
              && r.replies == [RecommendLoading, RecommendationText(r.data.lastRec), RefineInvite]
  {
    if !ud.followup then Outcome(ud, ReturnedNone, [], [])
    else
      var feedback := Strip(message);
      StripEmpty(message);
      if feedback == [] then Outcome(ud, ReturnedNone, [], [])
      else
        var rec := Llm.Refine(model, ud.recGoal, ud.recHistory, ud.lastRec, feedback);
        Outcome(ud.(lastRec := rec), ReturnedNone, [RecommendLoading, RecommendationText(rec), RefineInvite], [])
  }

  // ---------------------------------------------------------------- /view

  const ListingLimit := 4000
  const Ellipsis := "..."
  const NoLiftsText := "No lifts."

  /**
   The listing `view` sends (handlers.py:342-345): the joined lines stripped, cut to 3997
   characters plus an ellipsis when longer than 4000, and a fixed text when nothing is left.
   */
  function ShownListing(joined: string): (r: string)
    ensures |r| <= ListingLimit
    ensures Blank(joined) ==> r == NoLiftsText
    ensures !Blank(joined) && |Strip(joined)| <= ListingLimit ==> r == Strip(joined)
    ensures |Strip(joined)| > ListingLimit ==>
              && |r| == ListingLimit
              && r[..ListingLimit - |Ellipsis|] == Strip(joined)[..ListingLimit - |Ellipsis|]
              && r[ListingLimit - |Ellipsis|..] == Ellipsis
  {
    var text := Strip(joined);
    StripEmpty(joined);
    var cut := if |text| > ListingLimit then text[..ListingLimit - |Ellipsis|] + Ellipsis else text;
    if cut == [] then NoLiftsText else cut
  }

  /**
   `view` (handlers.py:314-345): the follow-up mode ends; with no stored lift the empty
   notice is sent, otherwise the listing, never longer than Telegram's limit.
   */
  function ViewCommand(ud: UserData, w: World): (r: Outcome)
    ensures r.data == ud.(followup := false) && r.result == ReturnedNone && r.writes == [EnsureUser(w.userId)]
    ensures |r.replies| == 1
    ensures r.replies[0] == ViewEmpty <==> w.history == []
    ensures w.history != [] ==> r.replies[0].ViewListing? && |r.replies[0].text| <= ListingLimit
    ensures w.history != [] ==> r.replies == [ViewListing(ShownListing(w.listing))]
  {
    var data := ud.(followup := false);
    if w.history == [] then Outcome(data, ReturnedNone, [ViewEmpty], [EnsureUser(w.userId)])
    else Outcome(data, ReturnedNone, [ViewListing(ShownListing(w.listing))], [EnsureUser(w.userId)])
  }

  // ---------------------------------------------------------------- all handlers, and the dispatch of bot.py:51-56

  /** One handler invocation with the inputs its update carries. */
  datatype Call =
    | StartCall
    | HelpCall
    | SetUnitCall(args: seq<string>)
    | SetGoalCall(args: seq<string>)
    | TrackStartCall
    | TrackInputCall(message: string)
    | FillCall(field: Field, message: string)
    | ConfirmCall(payload: string)
    | RecommendCall(args: seq<string>)
    | ViewCall
    | FollowupCall(message: string)
    | CancelCall

  /**
   Runs one handler. Only `track_input` and the confirm button can raise, and exactly the
   seven handlers registered outside the conversation's states and entry (bot.py:59-77,
   apart from `cancel`) return `None`.
   */
  function Handle(c: Call, ud: UserData, w: World): (r: Outcome)
    ensures r.result.Raised? ==> c.TrackInputCall? || c.ConfirmCall?
    ensures r.result.ReturnedNone? <==>
              c.StartCall? || c.HelpCall? || c.SetUnitCall? || c.SetGoalCall? || c.RecommendCall? || c.ViewCall? || c.FollowupCall?
  {
    if c.TrackInputCall? || c.FillCall? || c.ConfirmCall? then HandleDialog(c, ud, w) else HandleCommand(c, ud, w)
  }

  /** The handlers of the `/track` states. */
  function HandleDialog(c: Call, ud: UserData, w: World): (r: Outcome)
    requires c.TrackInputCall? || c.FillCall? || c.ConfirmCall?
    ensures !r.result.ReturnedNone? && (r.result.Raised? ==> !c.FillCall?)
  {
    match c
    case TrackInputCall(message) => TrackInput(ud, message, w.env)
    case FillCall(f, message) => FillField(ud, f, message, w.env.lit)
    case ConfirmCall(payload) => ConfirmButton(ud, payload, w.userId)
  }

  /** The command handlers and the follow-up router. */
  function HandleCommand(c: Call, ud: UserData, w: World): (r: Outcome)
    requires !(c.TrackInputCall? || c.FillCall? || c.ConfirmCall?)
    ensures !r.result.Raised? && (r.result.ReturnedNone? <==> !(c.TrackStartCall? || c.CancelCall?))
  {
    match c
    case StartCall => StartCommand(ud, w.userId)
    case HelpCall => HelpCommand(ud, w.userId)
    case SetUnitCall(args) => SetUnitCommand(ud, w.userId, args)
    case SetGoalCall(args) => SetGoalCommand(ud, w.userId, args)
    case TrackStartCall => TrackStart(w.userId)
    case RecommendCall(args) => RecommendCommand(ud, args, w)
    case ViewCall => ViewCommand(ud, w)
    case FollowupCall(message) => Followup(ud, message, w.env.model)
    case CancelCall => CancelCommand()
  }

  /** An update reaching the `/track` conversation: a plain text message or a button press. */
  datatype Event = TextMessage(text: string) | ButtonPress(payload: string)

  /**
   The handler bot.py:51-56 registers for a state and an update: text goes to `track_input`
   while waiting and to the slot's fill handler while filling, a button press goes to
   `track_confirm_button` at the confirmation; every other pair has no state handler.
   */
  function Route(s: State, e: Event): (r: Option<Call>)
    ensures r.Some? <==> (e.TextMessage? && s !in {Confirming, End}) || (e.ButtonPress? && s == Confirming)
    ensures r.Some? && s == WaitingInput ==> r.value == TrackInputCall(e.text)
    ensures r.Some? && FieldOf(s).Some? ==> r.value == FillCall(FieldOf(s).value, e.text)
    ensures r.Some? && s == Confirming ==> r.value == ConfirmCall(e.payload)
  {
    match (s, e)
    case (WaitingInput, TextMessage(t)) => Some(TrackInputCall(t))
    case (FillingExercise, TextMessage(t)) => Some(FillCall(Exercise, t))
    case (FillingSets, TextMessage(t)) => Some(FillCall(Sets, t))
    case (FillingReps, TextMessage(t)) => Some(FillCall(Reps, t))
    case (FillingWeight, TextMessage(t)) => Some(FillCall(Weight, t))
    case (Confirming, ButtonPress(p)) => Some(ConfirmCall(p))
    case _ => None
  }

  /**
   A step of the conversation from state `s` is sound: it leads into a state whose invariant
   holds, it always returns a state, and it raises only from the waiting state, with the
   `missing[0]` failure.
   */
  predicate SoundStep(o: Outcome, s: State) {
    && (o.result.Returned? ==> Inv(o.data, o.result.state))
    && (o.result.Raised? ==> s == WaitingInput && o.result.fault == MissingFieldIndex)
    && !o.result.ReturnedNone?
  }

  /** Text while waiting runs `track_input`, which leads into a state whose invariant holds or raises the `missing[0]` failure. */
  lemma WaitingStepSound(ud: UserData, message: string, w: World)
    ensures SoundStep(Handle(TrackInputCall(message), ud, w), WaitingInput)
  {
    TrackInputEstablishes(ud, message, w.env);
  }

  /** Text while a slot is being filled keeps the invariant and never raises. */
  lemma FillingStepSound(ud: UserData, f: Field, message: string, w: World)
    requires Inv(ud, FillState(f))
    ensures SoundStep(Handle(FillCall(f, message), ud, w), FillState(f))
  {
    InvOfFillState(ud, f);
    FillPreserves(ud, f, message, w.env.lit);
  }

  /** A button at the confirmation keeps the invariant and never raises. */
  lemma ConfirmingStepSound(ud: UserData, payload: string, w: World)
    requires Inv(ud, Confirming)
    ensures SoundStep(Handle(ConfirmCall(payload), ud, w), Confirming)
  {
    ConfirmNeverFaults(ud, payload, w.userId);
  }

  /** Every state handler of the conversation, run from a state whose invariant holds, is a sound step. */
  lemma RoutePreserves(ud: UserData, s: State, e: Event, w: World)
    requires Inv(ud, s) && Route(s, e).Some?
    ensures SoundStep(Handle(Route(s, e).value, ud, w), s)
  {
    match (s, e)
    case (WaitingInput, TextMessage(t)) => WaitingStepSound(ud, t, w);
    case (FillingExercise, TextMessage(t)) => FillingStepSound(ud, Exercise, t, w);
    case (FillingSets, TextMessage(t)) => FillingStepSound(ud, Sets, t, w);
    case (FillingReps, TextMessage(t)) => FillingStepSound(ud, Reps, t, w);
    case (FillingWeight, TextMessage(t)) => FillingStepSound(ud, Weight, t, w);
    case (Confirming, ButtonPress(p)) => ConfirmingStepSound(ud, p, w);
  }

  // ---------------------------------------------------------------- the follow-up flag

  /** `recommend` is the only handler that turns the follow-up mode on (handlers.py:307). */
  lemma FlagSetOnlyByRecommend(c: Call, ud: UserData, w: World)
    requires !ud.followup && !c.RecommendCall?
    ensures !Handle(c, ud, w).data.followup
  {
  }

  /** Every handler but `recommend`, the text handlers of the dialog and the follow-up itself ends the follow-up mode. */
  lemma FlagClearedBy(c: Call, ud: UserData, w: World)
    requires !c.RecommendCall? && !c.TrackInputCall? && !c.FillCall? && !c.FollowupCall?
    ensures var o := Handle(c, ud, w);
            !o.data.followup || (c.ConfirmCall? && o.result.Raised?)
  {
  }

  /** Once the mode has ended, a follow-up message does nothing at all. */
  lemma FollowupAfterClearIsInert(c: Call, ud: UserData, w: World, message: string, model: Model)
    requires c.StartCall? || c.HelpCall? || c.SetUnitCall? || c.SetGoalCall? || c.ViewCall? || c.TrackStartCall? || c.CancelCall?
    ensures var d := Handle(c, ud, w).data;
            var o := Followup(d, message, model);
            o.data == d && o.replies == [] && o.writes == []
  {
  }

  /**
   Right after `/recommend`, a non-blank reply is refined against the recommendation just
   sent, with the goal and history it was made from; the mode stays on.
   */
  lemma RecommendThenRefine(ud: UserData, args: seq<string>, w: World, message: string)
    requires !Blank(message)
    ensures var rec := RecommendCommand(ud, args, w);
            var o := Followup(rec.data, message, w.env.model);
            && o.data.followup
            && o.data.lastRec == Llm.Refine(w.env.model, w.goal, w.history, rec.data.lastRec, Strip(message))
  {
  }

  /** The commands that leave the dialog alone keep its invariant: `user_data` changes only in the follow-up keys. */
  lemma CommandsKeepDialog(c: Call, ud: UserData, w: World, s: State)
    requires c.StartCall? || c.HelpCall? || c.SetUnitCall? || c.SetGoalCall? || c.ViewCall? || c.RecommendCall? || c.FollowupCall?
    requires Inv(ud, s)
    ensures var o := Handle(c, ud, w);
            o.result == ReturnedNone && Inv(o.data, s)
  {
    var o := Handle(c, ud, w);
    assert o.data.raw == ud.raw && o.data.pendingLifts == ud.pendingLifts && o.data.slots == ud.slots;
    assert o.data.missing == ud.missing && o.data.missingIdx == ud.missingIdx;
  }

  /** Every unit a handler stores is one of the two known units. */
  lemma StoredUnitsKnown(c: Call, ud: UserData, w: World)
    ensures forall k :: 0 <= k < |Handle(c, ud, w).writes| && Handle(c, ud, w).writes[k].SetUnit? ==>
              KnownUnit(Handle(c, ud, w).writes[k].unit)
  {
  }
}

=== FILE: config.dfy ===
/**
 The start-up configuration check of config.py: the storage URL and service key
 are read from the environment, trimmed, and validated before the bot starts.
 */
module Config {
  import opened Options
  import opened Text

  /** Why `validate_config` raises. */
  datatype ConfigError = InvalidStorageUrl | MissingServiceKey

  /** The outcome of `validate_config`: it returns normally, or raises with one of the two errors. */
  datatype Validation = Valid | Invalid(error: ConfigError)

  const SecureScheme := "https://"

  /** `(os.getenv(name) or "").strip()` (config.py:8-9): an unset variable reads as the empty string. */
  function Setting(env: Option<string>): (r: string)
    ensures env.None? ==> r == ""
    ensures env.Some? ==> r == Strip(env.value)
    ensures Trimmed(r)
  {
    Strip(env.GetOr(""))
  }

  /**
   `validate_config` (config.py:12-20): the URL is checked first and must be non-empty
   and start with "https://"; only then must the service key be non-empty.
   */
  function ValidateConfig(url: string, key: string): (r: Validation)
    ensures r == Valid <==> StartsWith(url, SecureScheme) && key != ""
    ensures r == Invalid(InvalidStorageUrl) <==> !StartsWith(url, SecureScheme)
    ensures r == Invalid(MissingServiceKey) <==> StartsWith(url, SecureScheme) && key == ""
  {
    if url == "" || !StartsWith(url, SecureScheme) then Invalid(InvalidStorageUrl)
    else if key == "" then Invalid(MissingServiceKey)
    else Valid
  }

  /** The check as start-up runs it, on the environment as read at import time. */
  function ValidateEnvironment(urlEnv: Option<string>, keyEnv: Option<string>): Validation {
    ValidateConfig(Setting(urlEnv), Setting(keyEnv))
  }

  /** An empty URL fails, and so does an unset one, whatever the key (config.py:14). */
  lemma EmptyUrlRejected(key: string, keyEnv: Option<string>)
    ensures ValidateConfig("", key) == Invalid(InvalidStorageUrl)
    ensures ValidateEnvironment(None, keyEnv) == Invalid(InvalidStorageUrl)
  {
  }

  /** With both values bad, the URL error is the one reported. */
  lemma UrlCheckedFirst(url: string)
    requires !StartsWith(url, SecureScheme)
    ensures ValidateConfig(url, "") == Invalid(InvalidStorageUrl)
  {
  }

  /** Whitespace around either environment value, on either side and in any amount, makes no difference to the verdict. */
  lemma PaddingIgnored(url: string, key: string, p1: string, p2: string, p3: string, p4: string)
    requires Blank(p1) && Blank(p2) && Blank(p3) && Blank(p4)
    requires Trimmed(url) && Trimmed(key)
    ensures ValidateEnvironment(Some(p1 + url + p2), Some(p3 + key + p4)) == ValidateConfig(url, key)
  {
    StripPadded(url, p1, p2);
    StripPadded(key, p3, p4);
  }
}

=== FILE: filtering.dfy ===
/**
 Order-preserving filter-and-map over a sequence: the shape of a Python loop
 `for x in xs: y = f(x); if y: out.append(y)`.
 */
module Filtering {
  import opened Options

  /** The values `f` produces for the elements of `xs`, in order, skipping the `None`s. */
  function FilterMap<A, B>(xs: seq<A>, f: A -> Option<B>): (r: seq<B>)
    ensures |r| <= |xs|
    decreases |xs|
  {
    if xs == [] then []
    else
      var rest := FilterMap(xs[1..], f);
      match f(xs[0])
      case Some(y) => [y] + rest
      case None => rest
  }

  /** Filtering distributes over concatenation. */
  lemma {:induction false} FilterMapAppend<A, B>(a: seq<A>, b: seq<A>, f: A -> Option<B>)
    ensures FilterMap(a + b, f) == FilterMap(a, f) + FilterMap(b, f)
    decreases |a|
  {
    if a == [] {
      assert a + b == b;
    } else {
      assert (a + b)[1..] == a[1..] + b;
      assert (a + b)[0] == a[0];
      FilterMapAppend(a[1..], b, f);
    }
  }

  /** A single element is kept as its image when accepted, and dropped otherwise. */
  lemma FilterMapSingle<A, B>(x: A, f: A -> Option<B>)
    ensures FilterMap([x], f) == (match f(x) case Some(y) => [y] case None => [])
  {
    assert [x][1..] == [];
  }

  /**
   The filter keeps order: an accepted element lands at the position given by the
   number of elements kept before it.
   */
  lemma FilterMapPosition<A, B>(xs: seq<A>, f: A -> Option<B>, i: int)
    requires 0 <= i < |xs| && f(xs[i]).Some?
    ensures |FilterMap(xs[..i], f)| < |FilterMap(xs, f)|
    ensures FilterMap(xs, f)[|FilterMap(xs[..i], f)|] == f(xs[i]).value
  {
    assert xs == xs[..i] + xs[i..];
    FilterMapAppend(xs[..i], xs[i..], f);
    assert xs[i..][0] == xs[i];
  }

  /** An element of the result is the image of some element of the input, and every image is kept. */
  lemma {:induction false} FilterMapMembers<A, B>(xs: seq<A>, f: A -> Option<B>, y: B)
    ensures y in FilterMap(xs, f) <==> exists i :: 0 <= i < |xs| && f(xs[i]) == Some(y)
    decreases |xs|
  {
    if xs != [] {
      FilterMapMembers(xs[1..], f, y);
      assert forall i :: 1 <= i < |xs| ==> xs[i] == xs[1..][i - 1];
      if exists i :: 1 <= i < |xs| && f(xs[i]) == Some(y) {
        var i :| 1 <= i < |xs| && f(xs[i]) == Some(y);
        assert f(xs[1..][i - 1]) == Some(y);
      }
    }
  }

  /** Nothing is dropped exactly when every element is accepted. */
  lemma {:induction false} FilterMapKeepsAll<A, B>(xs: seq<A>, f: A -> Option<B>)
    ensures |FilterMap(xs, f)| == |xs| <==> forall i :: 0 <= i < |xs| ==> f(xs[i]).Some?
    decreases |xs|
  {
    if xs != [] {
      FilterMapKeepsAll(xs[1..], f);
      assert forall i :: 1 <= i < |xs| ==> xs[i] == xs[1..][i - 1];
    }
  }

  /** Nothing is kept exactly when every element is rejected. */
  lemma {:induction false} FilterMapDropsAll<A, B>(xs: seq<A>, f: A -> Option<B>)
    ensures FilterMap(xs, f) == [] <==> forall i :: 0 <= i < |xs| ==> f(xs[i]).None?
    decreases |xs|
  {
    if xs != [] {
      FilterMapDropsAll(xs[1..], f);
      assert forall i :: 1 <= i < |xs| ==> xs[i] == xs[1..][i - 1];
    }
  }
}

=== FILE: json.dfy ===
/**
 A decoded JSON value as Python's `json.loads` hands it to the bot, with Python's
 truthiness and the `int()` / `float()` conversions the handlers apply to it.
 Decoding itself is a collaborator (see `Llm.Env`); JSON `null` is Python `None`.
 */
module Json {
  import opened Options

  datatype JValue =
    | JNull
    | JBool(b: bool)
    | JInt(i: int)
    | JReal(r: real)
    | JStr(s: string)
    | JArr(elems: seq<JValue>)
    | JObj(fields: map<string, JValue>)

  /** Python's `bool(v)`: `None`, `False`, zero and empty containers are falsy. */
  predicate Truthy(v: JValue) {
    match v
    case JNull => false
    case JBool(b) => b
    case JInt(i) => i != 0
    case JReal(r) => r != 0.0
    case JStr(s) => s != []
    case JArr(e) => e != []
    case JObj(m) => m != map[]
  }

  /** Python's `d.get(key)`: the stored value, or `None` when the key is absent. */
  function Get(m: map<string, JValue>, key: string): (r: JValue)
    ensures key !in m ==> r == JNull
    ensures key in m ==> r == m[key]
  {
    if key in m then m[key] else JNull
  }

  /**
   The grammars of Python's `int(str)` and `float(str)`, kept abstract: each maps a
   string to the number it denotes, or to `None` where Python raises `ValueError`.
   */
  datatype Literals = Literals(parseInt: string -> Option<int>, parseFloat: string -> Option<real>)

  /** Python's `int(x)` on a float: rounds toward zero. */
  function Trunc(x: real): (r: int)
    ensures 0.0 <= x ==> 0 <= r && r as real <= x < r as real + 1.0
    ensures x < 0.0 ==> r <= 0 && r as real - 1.0 < x <= r as real
  {
    if 0.0 <= x then x.Floor else -((-x).Floor)
  }

  /**
   Python's `int(v)` on a decoded value; `None` where Python raises `TypeError` or
   `ValueError`. A bool is an int in Python, so `int(True) == 1`. Reals are finite here, so
   the `OverflowError` of `int` on an infinite float does not arise.
   */
  function PyInt(v: JValue, lit: Literals): Option<int>
  {
    match v
    case JBool(b) => Some(if b then 1 else 0)
    case JInt(i) => Some(i)
    case JReal(x) => Some(Trunc(x))
    case JStr(s) => lit.parseInt(s)
    case _ => None
  }

  /** Python's `float(v)` on a decoded value; `None` where Python raises `TypeError` or `ValueError` (the `OverflowError` of a huge int is not modelled). */
  function PyFloat(v: JValue, lit: Literals): Option<real>
  {
    match v
    case JBool(b) => Some(if b then 1.0 else 0.0)
    case JInt(i) => Some(i as real)
    case JReal(x) => Some(x)
    case JStr(s) => lit.parseFloat(s)
    case _ => None
  }

  /**
   What `int(v)` and `float(v)` do on each kind of decoded value: `None`, a list and a dict
   raise `TypeError`; a bool, an int and a float convert, an int to itself and a bool to
   0 or 1; a string goes through the literal grammars.
   */
  lemma ConversionShapes(v: JValue, lit: Literals)
    ensures v.JNull? || v.JArr? || v.JObj? ==> PyInt(v, lit).None? && PyFloat(v, lit).None?
    ensures v.JBool? || v.JInt? || v.JReal? ==> PyInt(v, lit).Some? && PyFloat(v, lit).Some?
    ensures v.JInt? ==> PyInt(v, lit) == Some(v.i) && PyFloat(v, lit) == Some(v.i as real)
    ensures v.JBool? ==> PyInt(v, lit) == Some(if v.b then 1 else 0)
    ensures v.JReal? ==> PyFloat(v, lit) == Some(v.r)
    ensures v.JStr? ==> PyInt(v, lit) == lit.parseInt(v.s) && PyFloat(v, lit) == lit.parseFloat(v.s)
  {
  }

  /** Rounding toward zero keeps a whole number as it is. */
  lemma TruncWhole(i: int)
    ensures Trunc(i as real) == i
  {
    if i < 0 {
      assert (-(i as real)) == (-i) as real;
    }
  }

  /**
   Off strings, `int(v)` succeeds exactly when `float(v)` does, and it is `float(v)`
   rounded toward zero.
   */
  lemma IntIsTruncatedFloat(v: JValue, lit: Literals)
    requires !v.JStr?
    ensures PyInt(v, lit).Some? <==> PyFloat(v, lit).Some?
    ensures PyInt(v, lit).Some? ==> PyInt(v, lit).value == Trunc(PyFloat(v, lit).value)
  {
    match v
    case JInt(i) => TruncWhole(i);
    case JBool(b) => TruncWhole(if b then 1 else 0);
    case _ =>
  }
}

=== FILE: lifts.dfy ===
/**
 The lift validator and filter of the `/track` dialog (handlers.py:95-126): one
 decoded item is accepted as a complete lift or rejected, never raising, and a
 model answer is reduced to the complete lifts it holds, in order.
 */
module Lifts {
  import opened Options
  import opened Text
  import opened Json
  import opened Filtering

  /** A candidate lift; the weight is always in pounds. */
  datatype Lift = Lift(exercise: string, sets: int, reps: int, weight: real)

  /** The bounds shared by sets and reps. */
  predicate CountInRange(n: int) {
    1 <= n <= 100
  }

  /** The weight bound, in pounds. */
  predicate WeightInRange(w: real) {
    0.0 < w <= 2000.0
  }

  /** A lift the validator would hand out: a trimmed non-empty name and every field in range. */
  predicate IsCompleteLift(l: Lift) {
    && l.exercise != []
    && Trimmed(l.exercise)
    && CountInRange(l.sets)
    && CountInRange(l.reps)
    && WeightInRange(l.weight)
  }

  /** The `exercise` entry of an object is a string that is not empty once stripped. */
  predicate HasExerciseName(m: map<string, JValue>) {
    Get(m, "exercise").JStr? && Strip(Get(m, "exercise").s) != []
  }

  /** An object has an exercise name exactly when its `exercise` is a string that is not all whitespace. */
  lemma ExerciseNameNotBlank(m: map<string, JValue>)
    ensures HasExerciseName(m) <==> Get(m, "exercise").JStr? && !Blank(Get(m, "exercise").s)
  {
    if Get(m, "exercise").JStr? {
      StripEmpty(Get(m, "exercise").s);
    }
  }

  /** `sets`, `reps` and `weight` are all present and convert with `int`, `int` and `float`. */
  predicate NumbersConvert(m: map<string, JValue>, lit: Literals) {
    && PyInt(Get(m, "sets"), lit).Some?
    && PyInt(Get(m, "reps"), lit).Some?
    && PyFloat(Get(m, "weight"), lit).Some?
  }

  /**
   `_parse_single_lift`: accepts an item exactly when it is an object whose `exercise` is a
   non-blank string and whose `sets`, `reps` and `weight` convert to values in range; the
   lift it returns carries the stripped name and the converted numbers.
   */
  function ParseSingleLift(item: JValue, lit: Literals): (r: Option<Lift>)
    ensures r.Some? <==>
              && item.JObj?
              && HasExerciseName(item.fields)
              && NumbersConvert(item.fields, lit)
              && CountInRange(PyInt(Get(item.fields, "sets"), lit).value)
              && CountInRange(PyInt(Get(item.fields, "reps"), lit).value)
              && WeightInRange(PyFloat(Get(item.fields, "weight"), lit).value)
    ensures r.Some? ==> IsCompleteLift(r.value)
    ensures r.Some? ==>
              && r.value.exercise == Strip(Get(item.fields, "exercise").s)
              && PyInt(Get(item.fields, "sets"), lit) == Some(r.value.sets)
              && PyInt(Get(item.fields, "reps"), lit) == Some(r.value.reps)
              && PyFloat(Get(item.fields, "weight"), lit) == Some(r.value.weight)
  {
    if !item.JObj? then None
    else
      var m := item.fields;
      var ex := Get(m, "exercise");
      if !ex.JStr? || Strip(ex.s) == [] then None
      else
        var sets, reps, weight := PyInt(Get(m, "sets"), lit), PyInt(Get(m, "reps"), lit), PyFloat(Get(m, "weight"), lit);
        if sets.None? || reps.None? || weight.None? then None
        else if sets.value < 1 || sets.value > 100 || reps.value < 1 || reps.value > 100
                || weight.value <= 0.0 || weight.value > 2000.0
        then None
        else Some(Lift(Strip(ex.s), sets.value, reps.value, weight.value))
  }

  /** The items `_extract_complete_lifts` walks: none for a falsy value, a list's elements, or the value alone. */
  function Items(parsed: JValue): seq<JValue> {
    if !Truthy(parsed) then []
    else if parsed.JArr? then parsed.elems
    else [parsed]
  }

  /** No items exactly for a falsy value; a list gives its elements, and any other truthy value gives itself alone. */
  lemma ItemsShape(parsed: JValue)
    ensures Items(parsed) == [] <==> !Truthy(parsed)
    ensures parsed.JArr? ==> Items(parsed) == parsed.elems
    ensures Truthy(parsed) && !parsed.JArr? ==> Items(parsed) == [parsed]
  {
  }

  /** The validator as a function value, for the filter loop of `_extract_complete_lifts`. */
  function Validator(lit: Literals): JValue -> Option<Lift> {
    item => ParseSingleLift(item, lit)
  }

  /**
   `_extract_complete_lifts`: nothing for a falsy value; otherwise the lifts of the
   accepted items, in order, every one of them complete.
   */
  function ExtractCompleteLifts(parsed: JValue, lit: Literals): (r: seq<Lift>)
    ensures !Truthy(parsed) ==> r == []
    ensures |r| <= |Items(parsed)|
    ensures Truthy(parsed) && !parsed.JArr? ==>
              r == (match ParseSingleLift(parsed, lit) case Some(l) => [l] case None => [])
    ensures forall k :: 0 <= k < |r| ==> IsCompleteLift(r[k])
    ensures r == [] <==> forall i :: 0 <= i < |Items(parsed)| ==> ParseSingleLift(Items(parsed)[i], lit).None?
  {
    var items := Items(parsed);
    var r := FilterMap(items, Validator(lit));
    assert forall k :: 0 <= k < |r| ==> IsCompleteLift(r[k]) by {
      forall k | 0 <= k < |r|
        ensures IsCompleteLift(r[k])
      {
        FilterMapMembers(items, Validator(lit), r[k]);
      }
    }
    FilterMapDropsAll(items, Validator(lit));
    r
  }

  /** When nothing is extracted from a non-empty list, its first item in particular was rejected. */
  lemma NothingExtractedRejectsFirst(items: seq<JValue>, lit: Literals)
    requires items != [] && ExtractCompleteLifts(JArr(items), lit) == []
    ensures ParseSingleLift(items[0], lit).None?
  {
    assert Items(JArr(items)) == items;
  }

  /** On a list, extraction is the filter loop over its elements. */
  lemma ExtractList(xs: seq<JValue>, lit: Literals)
    ensures ExtractCompleteLifts(JArr(xs), lit) == FilterMap(xs, Validator(lit))
  {
    assert Items(JArr(xs)) == xs;
  }

  /** Extraction keeps order: extracting from two lists in a row is extracting from their concatenation. */
  lemma ExtractConcat(a: seq<JValue>, b: seq<JValue>, lit: Literals)
    ensures ExtractCompleteLifts(JArr(a + b), lit) == ExtractCompleteLifts(JArr(a), lit) + ExtractCompleteLifts(JArr(b), lit)
  {
    ExtractList(a + b, lit);
    ExtractList(a, lit);
    ExtractList(b, lit);
    FilterMapAppend(a, b, Validator(lit));
  }

  /** A lift is extracted exactly when some item of the answer is accepted as that lift. */
  lemma ExtractMembers(parsed: JValue, lit: Literals, l: Lift)
    ensures l in ExtractCompleteLifts(parsed, lit) <==>
              exists i :: 0 <= i < |Items(parsed)| && ParseSingleLift(Items(parsed)[i], lit) == Some(l)
  {
    FilterMapMembers(Items(parsed), Validator(lit), l);
  }

  /** The extraction loses no item exactly when every item is accepted. */
  lemma ExtractKeepsAll(parsed: JValue, lit: Literals)
    ensures |ExtractCompleteLifts(parsed, lit)| == |Items(parsed)| <==>
              forall i :: 0 <= i < |Items(parsed)| ==> ParseSingleLift(Items(parsed)[i], lit).Some?
  {
    FilterMapKeepsAll(Items(parsed), Validator(lit));
  }

  /** An accepted item's lift comes right after the lifts extracted from the items before it. */
  lemma ExtractPosition(xs: seq<JValue>, lit: Literals, i: int)
    requires 0 <= i < |xs| && ParseSingleLift(xs[i], lit).Some?
    ensures var before := ExtractCompleteLifts(JArr(xs[..i]), lit);
            && |before| < |ExtractCompleteLifts(JArr(xs), lit)|
            && ExtractCompleteLifts(JArr(xs), lit)[|before|] == ParseSingleLift(xs[i], lit).value
  {
    ExtractList(xs, lit);
    ExtractList(xs[..i], lit);
    FilterMapPosition(xs, Validator(lit), i);
  }
}

=== FILE: llm.dfy ===
/**
 The language-model orchestration of llm.py: the lift-extraction call and its
 answer clean-up (llm.py:23-45), and the recommendation and refinement calls
 (llm.py:48-94). The model itself and `json.loads` are collaborators, passed in
 as functions; prompt texts are represented by what they embed.
 */
module Llm {
  import opened Options
  import opened Text
  import opened Json

  /** One stored lift as `get_user_lifts` returns it; `createdAt` stands for the creation time. */
  datatype HistoryRow = HistoryRow(exercise: string, sets: int, reps: int, weight: real, createdAt: int)

  /** The opening sentence of the recommendation prompt. */
  datatype Base = DefaultBase | WithRequest(request: string)

  /** The history part of a recommendation prompt: the fixed "no past lifts" text, or serialised rows. */
  datatype HistoryText = NoPastLifts | HistoryJson(rows: seq<HistoryRow>)

  /** What a prompt embeds; the surrounding template text is left out. */
  datatype Prompt =
    | ParseLiftPrompt(text: string)
    | RecommendPrompt(base: Base, goal: string, history: HistoryText)
    | RefinePrompt(previous: string, feedback: string, goal: string, history: HistoryText)

  /** One chat-completion call. */
  datatype LlmRequest = LlmRequest(prompt: Prompt, temperature: real)

  /** The first choice's content, or the exception the call raised (described by its message). */
  datatype LlmResult = Answered(content: string) | Failed(detail: string)

  /** The collaborator that answers a completion request. */
  type Model = LlmRequest -> LlmResult

  /** The collaborator `json.loads`: a decoded value, or `None` where it raises. */
  type Decoder = string -> Option<JValue>

  const Fence := "```"

  /** The fence starts at position `k` of `t`. */
  predicate FenceAt(t: string, k: int) {
    0 <= k && k + 3 <= |t| && t[k] == '`' && t[k + 1] == '`' && t[k + 2] == '`'
  }

  /** The text of `t` before the first occurrence of the fence, or all of `t` when there is none. */
  function UpToFence(t: string): (r: string)
    ensures |r| <= |t| && r == t[..|r|]
    ensures forall k :: 0 <= k < |r| ==> !FenceAt(t, k)
    ensures r == t || FenceAt(t, |r|)
    decreases |t|
  {
    if |t| < 3 then t
    else if FenceAt(t, 0) then []
    else
      var rest := UpToFence(t[1..]);
      assert forall k :: 1 <= k < |t| ==> (FenceAt(t, k) <==> FenceAt(t[1..], k - 1));
      [t[0]] + rest
  }

  /** No fence starts anywhere in `t`. */
  predicate FenceFree(t: string) {
    forall k :: 0 <= k < |t| ==> !FenceAt(t, k)
  }

  /** The text before the first fence holds no fence itself. */
  lemma UpToFenceFree(t: string)
    ensures FenceFree(UpToFence(t))
  {
    var r := UpToFence(t);
    forall k | 0 <= k < |r|
      ensures !FenceAt(r, k)
    {
      assert FenceAt(r, k) ==> FenceAt(t, k);
    }
  }

  /** Dropping a prefix of a fence-free text leaves it fence-free. */
  lemma FenceFreeSuffix(t: string, n: int)
    requires FenceFree(t) && 0 <= n <= |t|
    ensures FenceFree(t[n..])
  {
    forall k | 0 <= k < |t| - n
      ensures !FenceAt(t[n..], k)
    {
      assert FenceAt(t[n..], k) ==> FenceAt(t, k + n);
    }
  }

  /**
   The clean-up of the model's answer (llm.py:33-37): strip it, then cut out the
   fenced piece. An answer that does not open with a fence is only stripped; from one that
   does, what is left holds no fence.
   */
  function CleanAnswer(content: string): (r: string)
    ensures |r| <= |content|
    ensures !StartsWith(Strip(content), Fence) ==> r == Strip(content)
    ensures StartsWith(Strip(content), Fence) ==> FenceFree(r)
  {
    CleanText(Strip(content))
  }

  /**
   The clean-up after the strip: when the text opens with a fence keep only what lies
   between the first and the second fence, the piece `split("```")[1]`, and drop a
   leading `json` tag from that piece. The piece is shorter than the text by at least
   the opening fence and holds no fence.
   */
  function CleanText(c: string): (r: string)
    ensures !StartsWith(c, Fence) ==> r == c
    ensures StartsWith(c, Fence) ==> FenceFree(r) && |r| + |Fence| <= |c|
  {
    if StartsWith(c, Fence) then
      var piece := UpToFence(c[3..]);
      UpToFenceFree(c[3..]);
      if StartsWith(piece, "json") then FenceFreeSuffix(piece, 4); piece[4..] else piece
    else c
  }

  /** The text up to a fence that follows a backtick-free body is that body. */
  lemma {:induction false} UpToFenceAfterBody(body: string, rest: string)
    requires forall i :: 0 <= i < |body| ==> body[i] != '`'
    ensures UpToFence(body + Fence + rest) == body
    decreases |body|
  {
    var t := body + Fence + rest;
    if body == [] {
      assert FenceAt(t, 0);
    } else {
      assert t[0] == body[0] != '`';
      assert t[1..] == body[1..] + Fence + rest;
      UpToFenceAfterBody(body[1..], rest);
    }
  }

  /** The text after the opening fence of `Fence + piece + Fence + rest` runs up to the end of a backtick-free `piece`. */
  lemma FencedPiece(c: string, piece: string, rest: string)
    requires forall i :: 0 <= i < |piece| ==> piece[i] != '`'
    requires c == Fence + piece + Fence + rest
    ensures StartsWith(c, Fence) && UpToFence(c[3..]) == piece
  {
    assert c[..3] == Fence;
    assert c[3..] == piece + Fence + rest;
    UpToFenceAfterBody(piece, rest);
  }

  /** When the stripped answer is a fenced, backtick-free body, the clean-up gives back exactly that body (llm.py:33-35). */
  lemma FencedAnswerRoundTrip(content: string, body: string, rest: string)
    requires forall i :: 0 <= i < |body| ==> body[i] != '`'
    requires !StartsWith(body, "json")
    requires Strip(content) == Fence + body + Fence + rest
    ensures CleanAnswer(content) == body
  {
    FencedPiece(Strip(content), body, rest);
  }

  /** A `json` tag before a backtick-free body: still backtick-free, and dropping four characters gives the body back. */
  lemma TaggedBody(body: string)
    requires forall i :: 0 <= i < |body| ==> body[i] != '`'
    ensures var tagged := "json" + body;
            && (forall i :: 0 <= i < |tagged| ==> tagged[i] != '`')
            && StartsWith(tagged, "json") && tagged[4..] == body
  {
    var tagged := "json" + body;
    forall i | 0 <= i < |tagged|
      ensures tagged[i] != '`'
    {
      if i >= 4 {
        assert tagged[i] == body[i - 4];
      }
    }
    assert tagged[..4] == "json";
  }

  /** The text cleaned from a fenced, `json`-tagged, backtick-free body is that body. */
  lemma TaggedText(c: string, body: string, rest: string)
    requires forall i :: 0 <= i < |body| ==> body[i] != '`'
    requires c == Fence + ("json" + body) + Fence + rest
    ensures CleanText(c) == body
  {
    TaggedBody(body);
    FencedPiece(c, "json" + body, rest);
  }

  /** When the fenced body carries a `json` tag, the clean-up gives back the body without it (llm.py:36-37). */
  lemma TaggedAnswerRoundTrip(content: string, body: string, rest: string)
    requires forall i :: 0 <= i < |body| ==> body[i] != '`'
    requires Strip(content) == Fence + "json" + body + Fence + rest
    ensures CleanAnswer(content) == body
  {
    Regroup(Fence, "json", body, Fence, rest);
    TaggedText(Strip(content), body, rest);
  }

  /** Concatenation regrouped around its second and third parts. */
  lemma Regroup(a: string, b: string, c: string, d: string, e: string)
    ensures a + b + c + d + e == a + (b + c) + d + e
  {
  }

  /** An answer that does not open with a fence is only stripped. */
  lemma UnfencedAnswer(content: string)
    requires !StartsWith(Strip(content), Fence)
    ensures CleanAnswer(content) == Strip(content)
  {
  }

  /** The shape normalisation of llm.py:39-43: a list as it is, an object as a one-element list, anything else as nothing. */
  function AsItemList(v: JValue): (r: seq<JValue>)
    ensures v.JArr? ==> r == v.elems
    ensures v.JObj? ==> r == [v]
    ensures !v.JArr? && !v.JObj? ==> r == []
  {
    match v
    case JArr(elems) => elems
    case JObj(_) => [v]
    case _ => []
  }

  /** The extraction request: the user's text, sampled at temperature zero. */
  function ParseRequest(text: string): LlmRequest {
    LlmRequest(ParseLiftPrompt(text), 0.0)
  }

  /**
   `parse_lift_text`: always a list, never an exception. A failed call or an
   undecodable answer gives nothing; otherwise the decoded answer, shaped as a list.
   */
  function ParseLiftText(model: Model, decode: Decoder, text: string): (r: seq<JValue>)
    ensures model(ParseRequest(text)).Failed? ==> r == []
    ensures model(ParseRequest(text)).Answered? ==>
              var decoded := decode(CleanAnswer(model(ParseRequest(text)).content));
              && (decoded.None? ==> r == [])
              && (decoded.Some? && decoded.value.JArr? ==> r == decoded.value.elems)
              && (decoded.Some? && decoded.value.JObj? ==> r == [decoded.value])
              && (decoded.Some? && !decoded.value.JArr? && !decoded.value.JObj? ==> r == [])
  {
    match model(ParseRequest(text))
    case Failed(_) => []
    case Answered(content) =>
      match decode(CleanAnswer(content))
      case None => []
      case Some(v) => AsItemList(v)
  }

  const HistoryWindowSize := 20

  /** Python's `lift_history[-20:]`: the last twenty entries, or all of them when there are fewer. */
  function HistoryWindow<T>(h: seq<T>): (r: seq<T>)
    ensures |r| == if |h| < HistoryWindowSize then |h| else HistoryWindowSize
    ensures r == h[|h| - |r|..]
  {
    if |h| <= HistoryWindowSize then h else h[|h| - HistoryWindowSize..]
  }

  /** The rows run from newest to oldest, as `get_user_lifts` orders them (db.py:74); rows may share a time. */
  predicate NewestFirst(h: seq<HistoryRow>) {
    forall i, j :: 0 <= i < j < |h| ==> h[i].createdAt >= h[j].createdAt
  }

  /**
   Because the fetched rows run newest first, the window of `[-20:]` holds the oldest
   twenty of them: once there are more than twenty, the rows left out are the newest ones,
   no row in the window is newer than the newest row, and a strictly newest row is left out.
   */
  lemma WindowOmitsNewest(h: seq<HistoryRow>)
    requires NewestFirst(h) && |h| > HistoryWindowSize
    ensures forall k :: 0 <= k < |HistoryWindow(h)| ==> HistoryWindow(h)[k].createdAt <= h[0].createdAt
    ensures forall i, k :: 0 <= i < |h| - HistoryWindowSize && 0 <= k < |HistoryWindow(h)| ==>
              h[i].createdAt >= HistoryWindow(h)[k].createdAt
    ensures (forall i :: 1 <= i < |h| ==> h[i].createdAt < h[0].createdAt) ==> h[0] !in HistoryWindow(h)
  {
    var w := HistoryWindow(h);
    assert forall k :: 0 <= k < |w| ==> w[k] == h[|h| - |w| + k];
  }

  /** What `history_str` embeds (llm.py:53, 79). */
  function HistoryPart(h: seq<HistoryRow>): (r: HistoryText)
    ensures r.NoPastLifts? <==> h == []
    ensures r.HistoryJson? ==> |r.rows| <= HistoryWindowSize && |r.rows| <= |h| && r.rows == h[|h| - |r.rows|..]
    ensures r.HistoryJson? ==> |r.rows| == if |h| < HistoryWindowSize then |h| else HistoryWindowSize
    ensures r.HistoryJson? && |h| <= HistoryWindowSize ==> r.rows == h
  {
    if h == [] then NoPastLifts else HistoryJson(HistoryWindow(h))
  }

  const GoalNotSet := "Not set"

  /** `user_goal or RECOMMEND_GOAL_NOT_SET` (llm.py:57, 83): a missing or empty goal reads "Not set". */
  function GoalPart(goal: Option<string>): (r: string)
    ensures goal.None? || goal == Some("") ==> r == GoalNotSet
    ensures goal.Some? && goal.value != "" ==> r == goal.value
    ensures r != ""
  {
    if goal.None? || goal.value == "" then GoalNotSet else goal.value
  }

  /** The base sentence (llm.py:54): the request's own only for a non-empty request. */
  function BasePart(request: Option<string>): (r: Base)
    ensures r.WithRequest? <==> request.Some? && request.value != ""
    ensures r.WithRequest? ==> r.request == request.value
  {
    if request.Some? && request.value != "" then WithRequest(request.value) else DefaultBase
  }

  /** The recommendation call: goal, history window and base embedded, sampled at temperature 0.7. */
  function RecommendRequest(goal: Option<string>, history: seq<HistoryRow>, request: Option<string>): LlmRequest {
    LlmRequest(RecommendPrompt(BasePart(request), GoalPart(goal), HistoryPart(history)), 0.7)
  }

  /** The refinement call: previous text and feedback verbatim, goal and history window as for a recommendation. */
  function RefineRequest(goal: Option<string>, history: seq<HistoryRow>, previous: string, feedback: string): LlmRequest {
    LlmRequest(RefinePrompt(previous, feedback, GoalPart(goal), HistoryPart(history)), 0.7)
  }

  const ErrorPrefix := "Sorry, I couldn't generate a recommendation right now: "

  /** The text a recommendation call hands back: the stripped answer, or the apology carrying the failure. */
  function ReplyText(res: LlmResult): (r: string)
    ensures res.Answered? ==> r == Strip(res.content)
    ensures res.Failed? ==> StartsWith(r, ErrorPrefix) && r[|ErrorPrefix|..] == res.detail
  {
    match res
    case Answered(content) => Strip(content)
    case Failed(detail) => ErrorPrefix + detail
  }

  /** `get_workout_recommendation`: never raises; the answer to the recommendation call, or the apology. */
  function Recommend(model: Model, goal: Option<string>, history: seq<HistoryRow>, request: Option<string>): (r: string)
    ensures model(RecommendRequest(goal, history, request)).Answered? ==>
              r == Strip(model(RecommendRequest(goal, history, request)).content)
    ensures model(RecommendRequest(goal, history, request)).Failed? ==>
              StartsWith(r, ErrorPrefix) && r[|ErrorPrefix|..] == model(RecommendRequest(goal, history, request)).detail
  {
    ReplyText(model(RecommendRequest(goal, history, request)))
  }

  /** `refine_recommendation`: never raises; the answer to the refinement call, or the apology. */
  function Refine(model: Model, goal: Option<string>, history: seq<HistoryRow>, previous: string, feedback: string): (r: string)
    ensures model(RefineRequest(goal, history, previous, feedback)).Answered? ==>
              r == Strip(model(RefineRequest(goal, history, previous, feedback)).content)
    ensures model(RefineRequest(goal, history, previous, feedback)).Failed? ==>
              StartsWith(r, ErrorPrefix) && r[|ErrorPrefix|..] == model(RefineRequest(goal, history, previous, feedback)).detail
  {
    ReplyText(model(RefineRequest(goal, history, previous, feedback)))
  }

  /**
   Both recommendation prompts show the fixed "no past lifts" text exactly for an empty
   history and otherwise its last twenty rows (all of them when there are fewer), the
   goal placeholder exactly when the goal is missing or empty (the recommendation's
   request sentence carrying the user's request verbatim), and are sampled at
   temperature 0.7, while extraction is sampled at zero.
   */
  lemma RequestShapes(goal: Option<string>, history: seq<HistoryRow>, request: Option<string>, previous: string, feedback: string, text: string)
    ensures var q := RecommendRequest(goal, history, request);
            && q.temperature == 0.7
            && (q.prompt.history.NoPastLifts? <==> history == [])
            && (q.prompt.history.HistoryJson? ==>
                  && |q.prompt.history.rows| == (if |history| < HistoryWindowSize then |history| else HistoryWindowSize)
                  && q.prompt.history.rows == history[|history| - |q.prompt.history.rows|..])
            && (goal.None? || goal == Some("") ==> q.prompt.goal == GoalNotSet)
            && (goal.Some? && goal.value != "" ==> q.prompt.goal == goal.value)
            && (q.prompt.base.WithRequest? <==> request.Some? && request.value != "")
            && (q.prompt.base.WithRequest? ==> q.prompt.base.request == request.value)
    ensures var q := RefineRequest(goal, history, previous, feedback);
            && q.temperature == 0.7
            && q.prompt.previous == previous && q.prompt.feedback == feedback
            && (q.prompt.history.NoPastLifts? <==> history == [])
            && (q.prompt.history.HistoryJson? ==>
                  && |q.prompt.history.rows| == (if |history| < HistoryWindowSize then |history| else HistoryWindowSize)
                  && q.prompt.history.rows == history[|history| - |q.prompt.history.rows|..])
            && (goal.None? || goal == Some("") ==> q.prompt.goal == GoalNotSet)
            && (goal.Some? && goal.value != "" ==> q.prompt.goal == goal.value)
    ensures ParseRequest(text).temperature == 0.0
  {
    SharedParts(goal, history);
    assert RecommendRequest(goal, history, request).prompt ==
           RecommendPrompt(BasePart(request), GoalPart(goal), HistoryPart(history));
    assert RefineRequest(goal, history, previous, feedback).prompt ==
           RefinePrompt(previous, feedback, GoalPart(goal), HistoryPart(history));
  }

  /** The goal and history parts both prompts share, as their builders promise them. */
  lemma SharedParts(goal: Option<string>, history: seq<HistoryRow>)
    ensures HistoryPart(history).NoPastLifts? <==> history == []
    ensures HistoryPart(history).HistoryJson? ==>
              && |HistoryPart(history).rows| == (if |history| < HistoryWindowSize then |history| else HistoryWindowSize)
              && HistoryPart(history).rows == history[|history| - |HistoryPart(history).rows|..]
    ensures goal.None? || goal == Some("") ==> GoalPart(goal) == GoalNotSet
    ensures goal.Some? && goal.value != "" ==> GoalPart(goal) == goal.value
  {
  }
}

=== FILE: options.dfy ===
/** Python's `None`-or-value, used wherever the bot stores an optional value. */
module Options {

  datatype Option<+T> = None | Some(value: T) {

    /** The value, or `default` when there is none (Python's `x or default` on a non-falsy x). */
    function GetOr(default: T): T {
      match this
      case Some(v) => v
      case None => default
    }
  }
}

=== FILE: scenarios.dfy ===
/**
 Worked runs of the `/track` dialog against a fixed model answer, covering the
 direct confirmation, partial seeding, an empty answer, and the two consequences
 of seeding without range checks.
 */
module TrackScenarios {
  import opened Options
  import opened Text
  import opened Json
  import opened Filtering
  import opened Lifts
  import opened Llm
  import opened Session
  import opened Track

  /** No string is an `int` or `float` literal: every number below is a JSON number. */
  const NoLiterals := Literals(s => None, s => None)

  /** A model that always answers `x`, and a decoder that reads any answer as `items`. */
  function Answering(items: seq<JValue>): Env {
    Env(req => Answered("x"), s => Some(JArr(items)), NoLiterals)
  }

  /** Whatever the message, the answer decodes to the fixed items. */
  lemma AnsweringParses(message: string, items: seq<JValue>)
    ensures Parsed(message, Answering(items)) == items
  {
  }

  /** An answer item holding all four keys. */
  function Full(name: string, sets: int, reps: int, weight: int): JValue {
    JObj(map["exercise" := JStr(name), "sets" := JInt(sets), "reps" := JInt(reps), "weight" := JInt(weight)])
  }

  /** An answer item holding a name only. */
  function NameOnly(name: string): JValue {
    JObj(map["exercise" := JStr(name)])
  }

  /** An answer item holding the three numbers but no name. */
  function NumbersOnly(sets: int, reps: int, weight: int): JValue {
    JObj(map["sets" := JInt(sets), "reps" := JInt(reps), "weight" := JInt(weight)])
  }

  /** The four keys are distinct, so each reads back what was put under it, and a key left out reads as null. */
  lemma ItemsRead(name: string, sets: int, reps: int, weight: int)
    ensures var m := Full(name, sets, reps, weight).fields;
            Get(m, "exercise") == JStr(name) && Get(m, "sets") == JInt(sets)
            && Get(m, "reps") == JInt(reps) && Get(m, "weight") == JInt(weight)
    ensures var m := NameOnly(name).fields;
            Get(m, "exercise") == JStr(name) && Get(m, "sets") == JNull
            && Get(m, "reps") == JNull && Get(m, "weight") == JNull
    ensures var m := NumbersOnly(sets, reps, weight).fields;
            Get(m, "exercise") == JNull && Get(m, "sets") == JInt(sets)
            && Get(m, "reps") == JInt(reps) && Get(m, "weight") == JInt(weight)
  {
    var e, s, r, w := "exercise", "sets", "reps", "weight";
    assert |e| == 8 && |s| == 4 && |r| == 4 && |w| == 6 && s[0] == 's' && r[0] == 'r';
  }

  /** A one-item answer yields nothing exactly when the validator rejects the item. */
  lemma SingleItemExtracted(message: string, item: JValue)
    ensures Extracted(message, Answering([item])) ==
            (match ParseSingleLift(item, NoLiterals) case Some(l) => [l] case None => [])
  {
    AnsweringParses(message, [item]);
    ExtractList([item], NoLiterals);
    FilterMapSingle(item, Validator(NoLiterals));
  }

  /** One complete lift in the answer: the dialog goes straight to the confirmation, counting one lift. */
  lemma CompleteAnswerConfirms(message: string, name: string, sets: int, reps: int, weight: int)
    requires name != [] && Trimmed(name)
    requires CountInRange(sets) && CountInRange(reps) && WeightInRange(weight as real)
    ensures var r := TrackInput(Cleared, message, Answering([Full(name, sets, reps, weight)]));
            && r.result == Returned(Confirming)
            && r.data.pendingLifts == Some([Lift(name, sets, reps, weight as real)])
            && r.replies == [ConfirmQuestion(1)]
  {
    ItemsRead(name, sets, reps, weight);
    SingleItemExtracted(message, Full(name, sets, reps, weight));
  }

  /** Slots holding a name and nothing else leave the three numbers to ask for. */
  lemma NumbersMissing(name: string)
    requires name != []
    ensures Missing(Slots(Some(name), None, None, None)) == [Sets, Reps, Weight]
  {
    var slots := Slots(Some(name), None, None, None);
    forall f
      ensures f in [Sets, Reps, Weight] <==> !Present(slots, f)
    {
      match f
      case Exercise =>
      case Sets => assert [Sets, Reps, Weight][0] == f;
      case Reps => assert [Sets, Reps, Weight][1] == f;
      case Weight => assert [Sets, Reps, Weight][2] == f;
    }
    MissingExactly(slots, [Sets, Reps, Weight]);
  }

  /** Slots holding the three numbers and no name leave only the name to ask for. */
  lemma NameMissing(s: Slots)
    requires s.exercise.None? && s.sets.Some? && s.reps.Some? && s.weight.Some?
    ensures Missing(s) == [Exercise]
  {
    forall f
      ensures f in [Exercise] <==> !Present(s, f)
    {
      match f
      case Exercise => assert [Exercise][0] == f;
      case Sets =>
      case Reps =>
      case Weight =>
    }
    MissingExactly(s, [Exercise]);
  }

  /** Empty slots leave all four to ask for, in dialog order. */
  lemma AllMissing()
    ensures Missing(NoSlots) == FieldOrder
  {
    forall f
      ensures f in FieldOrder <==> !Present(NoSlots, f)
    {
      assert FieldOrder[Rank(f)] == f;
    }
    MissingExactly(NoSlots, FieldOrder);
  }

  /** A name-only item seeds the name alone. */
  lemma SeedNameOnly(name: string)
    requires Trimmed(name)
    ensures Seed(NoSlots, NameOnly(name), NoLiterals) == Slots(Some(name), None, None, None)
  {
    ItemsRead(name, 0, 0, 0);
    var slots := Seed(NoSlots, NameOnly(name), NoLiterals);
    assert SlotOf(slots, Exercise) == Some(ExerciseEntry(name));
    assert SlotOf(slots, Sets).None? && SlotOf(slots, Reps).None? && SlotOf(slots, Weight).None?;
  }

  /** An object without a name but with three convertible numbers seeds exactly the numbers. */
  lemma SeedNumbersOnly(m: map<string, JValue>, lit: Literals)
    requires Get(m, "exercise").JNull? && NumbersConvert(m, lit)
    ensures Seed(NoSlots, JObj(m), lit) ==
            Slots(None, PyInt(Get(m, "sets"), lit), PyInt(Get(m, "reps"), lit), PyFloat(Get(m, "weight"), lit))
  {
    var slots := Seed(NoSlots, JObj(m), lit);
    assert SlotOf(slots, Exercise).None?;
    assert SlotOf(slots, Sets) == Some(SetsEntry(PyInt(Get(m, "sets"), lit).value));
    assert SlotOf(slots, Reps) == Some(RepsEntry(PyInt(Get(m, "reps"), lit).value));
    assert SlotOf(slots, Weight) == Some(WeightEntry(PyFloat(Get(m, "weight"), lit).value));
  }

  /** The empty object seeds nothing. */
  lemma SeedEmpty(lit: Literals)
    ensures Seed(NoSlots, JObj(map[]), lit) == NoSlots
  {
    var slots := Seed(NoSlots, JObj(map[]), lit);
    assert SlotOf(slots, Exercise).None? && SlotOf(slots, Sets).None?;
    assert SlotOf(slots, Reps).None? && SlotOf(slots, Weight).None?;
  }

  /** When nothing is extracted, the slots are those seeded from the first item, and the first one they leave missing is asked for. */
  lemma FallbackAsks(message: string, env: Env)
    ensures var r := TrackInput(Cleared, message, env);
            var slots := Seed(NoSlots, FirstItem(Parsed(message, env)), env.lit);
            Extracted(message, env) == [] && Missing(slots) != [] ==>
              && r.data.slots == slots
              && r.data.missing == Missing(slots)
              && r.result == Returned(FillState(Missing(slots)[0]))
  {
    var r := TrackInput(Cleared, message, env);
    if Extracted(message, env) == [] {
      MissingExactly(r.data.slots, r.data.missing);
    }
  }

  /** A name-only answer holds no complete lift, and its one item is what the fallback seeds from. */
  lemma NameOnlyParsed(message: string, name: string)
    ensures Extracted(message, Answering([NameOnly(name)])) == []
    ensures FirstItem(Parsed(message, Answering([NameOnly(name)]))) == NameOnly(name)
  {
    ItemsRead(name, 0, 0, 0);
    assert ParseSingleLift(NameOnly(name), NoLiterals).None?;
    SingleItemExtracted(message, NameOnly(name));
    AnsweringParses(message, [NameOnly(name)]);
  }

  /** Only a name in the answer: the three numbers are missing and sets are asked for first. */
  lemma NameOnlyAsksForNumbers(message: string, name: string)
    requires name != [] && Trimmed(name)
    ensures var r := TrackInput(Cleared, message, Answering([NameOnly(name)]));
            && r.data.missing == [Sets, Reps, Weight]
            && r.data.slots == Slots(Some(name), None, None, None)
            && r.result == Returned(FillingSets)
  {
    NameOnlyParsed(message, name);
    SeedNameOnly(name);
    NumbersMissing(name);
    FallbackAsks(message, Answering([NameOnly(name)]));
  }

  /** An empty answer yields no lift and seeds from the empty object. */
  lemma EmptyAnswerParsed(message: string)
    ensures Extracted(message, Answering([])) == []
    ensures FirstItem(Parsed(message, Answering([]))) == JObj(map[])
  {
    var env := Answering([]);
    AnsweringParses(message, []);
    assert Parsed(message, env) == [];
    assert Items(JArr([])) == [];
  }

  /** An empty answer: all four slots are missing, in dialog order. */
  lemma EmptyAnswerAsksForEverything(message: string)
    ensures var r := TrackInput(Cleared, message, Answering([]));
            && r.data.missing == FieldOrder
            && r.result == Returned(FillingExercise)
  {
    EmptyAnswerParsed(message);
    SeedEmpty(NoLiterals);
    AllMissing();
  }

  /** A full item with zero sets: nothing is extracted, nothing is missing, and `missing[0]` raises. */
  lemma ZeroSetsRaises(message: string, name: string, reps: int, weight: int)
    requires name != [] && Trimmed(name)
    ensures TrackInput(Cleared, message, Answering([Full(name, 0, reps, weight)])).result == Raised(MissingFieldIndex)
  {
    var item := Full(name, 0, reps, weight);
    ItemsRead(name, 0, reps, weight);
    assert ParseSingleLift(item, NoLiterals).None?;
    assert HasExerciseName(item.fields) && NumbersConvert(item.fields, NoLiterals);
    SingleItemExtracted(message, item);
    AnsweringParses(message, [item]);
    TrackInputFault(Cleared, message, Answering([item]));
  }

  /** Seeding numbers but no name leaves only the name to ask for. */
  lemma AskedForNameOnly(message: string, env: Env)
    requires Extracted(message, env) == []
    requires FirstItem(Parsed(message, env)).JObj?
    requires var m := FirstItem(Parsed(message, env)).fields;
             && Get(m, "exercise").JNull?
             && NumbersConvert(m, env.lit)
    ensures var m := FirstItem(Parsed(message, env)).fields;
            var asked := TrackInput(Cleared, message, env);
            && asked.result == Returned(FillingExercise)
            && asked.data.missing == [Exercise] && asked.data.missingIdx == 0
            && !HasPending(asked.data)
            && asked.data.slots == Slots(None, PyInt(Get(m, "sets"), env.lit), PyInt(Get(m, "reps"), env.lit),
                                         PyFloat(Get(m, "weight"), env.lit))
  {
    var m := FirstItem(Parsed(message, env)).fields;
    SeedNumbersOnly(m, env.lit);
    NameMissing(Seed(NoSlots, JObj(m), env.lit));
  }

  /** With only the name missing, giving it completes the lift, and confirming saves it as it stands. */
  lemma NameCompletesManualLift(ud: UserData, name: string, lit: Literals, userId: int)
    requires ud.missing == [Exercise] && ud.missingIdx == 0 && !HasPending(ud)
    requires ud.slots.sets.Some? && ud.slots.reps.Some? && ud.slots.weight.Some?
    requires !Blank(name)
    ensures var filled := FillField(ud, Exercise, name, lit);
            var saved := ConfirmButton(filled.data, "confirm_save", userId);
            && filled.result == Returned(Confirming)
            && saved.writes == [InsertLift(userId, Lift(Strip(name), ud.slots.sets.value, ud.slots.reps.value, ud.slots.weight.value))]
  {
    StripEmpty(name);
    var filled := FillField(ud, Exercise, name, lit);
    assert CheckFill(Exercise, name, lit).Accept?;
    var t := filled.data.slots;
    assert SlotOf(t, Exercise) == Some(ExerciseEntry(Strip(name)));
    assert SlotOf(t, Sets) == SlotOf(ud.slots, Sets);
    assert SlotOf(t, Reps) == SlotOf(ud.slots, Reps);
    assert SlotOf(t, Weight) == SlotOf(ud.slots, Weight);
    assert !HasPending(filled.data);
  }

  /**
   Numbers seeded without a name are never range-checked: once the name is given, the
   seeded values are saved as they stand, whatever their range.
   */
  lemma UncheckedSeedIsSaved(message: string, env: Env, name: string, userId: int)
    requires Extracted(message, env) == []
    requires FirstItem(Parsed(message, env)).JObj?
    requires var m := FirstItem(Parsed(message, env)).fields;
             && Get(m, "exercise").JNull?
             && NumbersConvert(m, env.lit)
    requires !Blank(name)
    ensures var m := FirstItem(Parsed(message, env)).fields;
            var asked := TrackInput(Cleared, message, env);
            var filled := FillField(asked.data, Exercise, name, env.lit);
            var saved := ConfirmButton(filled.data, "confirm_save", userId);
            && asked.result == Returned(FillingExercise)
            && filled.result == Returned(Confirming)
            && saved.writes == [InsertLift(userId, Lift(Strip(name),
                                                        PyInt(Get(m, "sets"), env.lit).value,
                                                        PyInt(Get(m, "reps"), env.lit).value,
                                                        PyFloat(Get(m, "weight"), env.lit).value))]
  {
    AskedForNameOnly(message, env);
    NameCompletesManualLift(TrackInput(Cleared, message, env).data, name, env.lit, userId);
  }

  /** For instance zero sets: the record saved is one the validator would have rejected. */
  lemma ZeroSetsSaved(message: string, name: string, reps: int, weight: int, userId: int)
    requires name != [] && Trimmed(name)
    ensures var env := Answering([NumbersOnly(0, reps, weight)]);
            var asked := TrackInput(Cleared, message, env);
            var filled := FillField(asked.data, Exercise, name, env.lit);
            var saved := ConfirmButton(filled.data, "confirm_save", userId);
            && saved.writes == [InsertLift(userId, Lift(name, 0, reps, weight as real))]
            && !IsCompleteLift(Lift(name, 0, reps, weight as real))
  {
    var env := Answering([NumbersOnly(0, reps, weight)]);
    ItemsRead(name, 0, reps, weight);
    SingleItemExtracted(message, NumbersOnly(0, reps, weight));
    AnsweringParses(message, [NumbersOnly(0, reps, weight)]);
    UncheckedSeedIsSaved(message, env, name, userId);
  }
}

=== FILE: session.dfy ===
/**
 The per-user state of the bot and the observable effects of one handler call:
 the `context.user_data` record, the `/track` conversation states, the replies
 sent (as tags; their texts are left out) and the storage writes issued.
 */
module Session {
  import opened Options
  import opened Json
  import opened Lifts
  import opened Llm

  /** The four slots of a lift, in the order the dialog asks for them. */
  datatype Field = Exercise | Sets | Reps | Weight

  /** A slot's position in the order exercise, sets, reps, weight. */
  function Rank(f: Field): nat {
    match f
    case Exercise => 0
    case Sets => 1
    case Reps => 2
    case Weight => 3
  }

  /** The `/track` conversation states (handlers.py:33), with `End` for `ConversationHandler.END`. */
  datatype State = WaitingInput | FillingExercise | FillingSets | FillingReps | FillingWeight | Confirming | End

  /** What the generic "invalid input" reply asks for. */
  datatype Hint = ANumber | SomeText

  /** The replies a handler sends, one tag per message template. */
  datatype Reply =
    | TrackStartPrompt
    | FillPrompt(field: Field)
    | InvalidExercise
    | InvalidSetsReps
    | InvalidWeight
    | InvalidGeneric(hint: Hint)
    | ConfirmQuestion(count: nat)
    | TrackCancelled
    | Saved(lift: Lift)
    | SavedMulti(count: nat)
    | ContinuePrompt
    | StartMessage
    | HelpMessage
    | UnitUpdated(unit: string)
    | UnitUsage
    | GoalUpdated(goal: string)
    | GoalExample
    | ViewEmpty
    | ViewListing(text: string)
    | RecommendLoading
    | RecommendationText(text: string)
    | RefineInvite
    | CancelMessage

  /** The storage calls that change something: `ensure_user`, `insert_lift`, `set_user_goal`, `set_user_unit`. */
  datatype DbWrite =
    | EnsureUser(userId: int)
    | InsertLift(userId: int, lift: Lift)
    | SetGoal(userId: int, goal: string)
    | SetUnit(userId: int, unit: string)

  /** The exceptions a handler can let escape. */
  datatype Fault =
    | MissingFieldIndex  // `missing[0]` on an empty list (handlers.py:175)
    | UnfilledField      // a manual save with a slot that was never filled (handlers.py:273-279)

  /** What a handler does at its end: return a conversation state, return `None`, or raise. */
  datatype HandlerResult = Returned(state: State) | ReturnedNone | Raised(fault: Fault)

  /** The four slots of the lift being filled in by hand (`user_data` keys `exercise` … `weight`). */
  datatype Slots = Slots(exercise: Option<string>, sets: Option<int>, reps: Option<int>, weight: Option<real>)

  /** All four slots set to `None`, as handlers.py:147-150 leave them. */
  const NoSlots := Slots(None, None, None, None)

  /**
   `context.user_data`. A key that is absent reads as the default its `.get` call
   supplies (`None`, `[]`, `0`, `""`, false), so absence is not modelled separately.
   */
  datatype UserData = UserData(
    raw: Option<string>,
    pendingLifts: Option<seq<Lift>>,
    slots: Slots,
    missing: seq<Field>,
    missingIdx: nat,
    followup: bool,
    recGoal: Option<string>,
    recHistory: seq<HistoryRow>,
    lastRec: string)

  /** `user_data` after `clear()`. */
  const Cleared := UserData(None, None, NoSlots, [], 0, false, None, [], "")

  /** `data.get("pending_lifts")` is truthy: a non-empty candidate list is waiting. */
  predicate HasPending(ud: UserData) {
    ud.pendingLifts.Some? && ud.pendingLifts.value != []
  }

  /** The state, replies and writes of one handler call. */
  datatype Outcome = Outcome(data: UserData, result: HandlerResult, replies: seq<Reply>, writes: seq<DbWrite>)

  /** The collaborators a `/track` turn needs: the language model, `json.loads`, and the number grammars. */
  datatype Env = Env(model: Model, decode: Decoder, lit: Literals)
}

=== FILE: text.dfy ===
/**
 The few Python `str` operations the bot relies on: `strip()`, `startswith`,
 ASCII `lower()` and `" ".join`.
 */
module Text {

  /** The characters for which Python's `str.isspace()` holds, which is what `strip()` removes. */
  predicate IsSpace(c: char) {
    || ('\t' <= c <= '\r')
    || ('\U{1C}' <= c <= ' ')
    || c == '\U{85}' || c == '\U{A0}' || c == '\U{1680}'
    || ('\U{2000}' <= c <= '\U{200A}')
    || c == '\U{2028}' || c == '\U{2029}' || c == '\U{202F}' || c == '\U{205F}' || c == '\U{3000}'
  }

  /** Every character of `s` is whitespace (true of the empty string). */
  predicate Blank(s: string) {
    forall i :: 0 <= i < |s| ==> IsSpace(s[i])
  }

  /** Neither end of `s` is whitespace. */
  predicate Trimmed(s: string) {
    s == [] || (!IsSpace(s[0]) && !IsSpace(s[|s| - 1]))
  }

  /** `s` with its leading whitespace removed: a suffix of `s` that starts with a non-space. */
  function TrimStart(s: string): (r: string)
    ensures |r| <= |s| && r == s[|s| - |r|..]
    ensures forall i :: 0 <= i < |s| - |r| ==> IsSpace(s[i])
    ensures r == [] || !IsSpace(r[0])
    decreases |s|
  {
    if |s| > 0 && IsSpace(s[0]) then TrimStart(s[1..]) else s
  }

  /** `s` with its trailing whitespace removed: a prefix of `s` that ends with a non-space. */
  function TrimEnd(s: string): (r: string)
    ensures |r| <= |s| && r == s[..|r|]
    ensures forall i :: |r| <= i < |s| ==> IsSpace(s[i])
    ensures r == [] || !IsSpace(r[|r| - 1])
    decreases |s|
  {
    if |s| > 0 && IsSpace(s[|s| - 1]) then TrimEnd(s[..|s| - 1]) else s
  }

  /** Python's `s.strip()`. */
  function Strip(s: string): (r: string)
    ensures |r| <= |s|
    ensures Trimmed(r)
    ensures Trimmed(s) ==> r == s
  {
    var t := TrimStart(s);
    var r := TrimEnd(t);
    assert Trimmed(r) by {
      if r != [] {
        assert r[0] == t[0];
      }
    }
    assert Trimmed(s) ==> r == s by {
      if Trimmed(s) && s != [] {
        assert TrimStart(s) == s;
        assert TrimEnd(s) == s;
      }
    }
    r
  }

  /** `s.strip()` is empty exactly when `s` is all whitespace. */
  lemma StripEmpty(s: string)
    ensures Strip(s) == [] <==> Blank(s)
  {
    var t := TrimStart(s);
    if t != [] {
      assert !IsSpace(t[0]) && TrimEnd(t) != [];
      assert s[|s| - |t|] == t[0];
    }
  }

  /** Python's `s.startswith(p)`. */
  predicate StartsWith(s: string, p: string) {
    |p| <= |s| && s[..|p|] == p
  }

  /** U+212A KELVIN SIGN, the one character outside ASCII that `str.lower()` turns into a single ASCII letter. */
  const KelvinSign: char := '\U{212A}'

  /**
   Python's `str.lower()` on one character: the ASCII capitals and the Kelvin sign, which
   lowers to `k`; every other character is kept.
   */
  function LowerChar(c: char): (r: char)
    ensures 'A' <= c <= 'Z' ==> 'a' <= r <= 'z' && r as int - c as int == 32
    ensures c == KelvinSign ==> r == 'k'
    ensures !('A' <= c <= 'Z') && c != KelvinSign ==> r == c
  {
    if 'A' <= c <= 'Z' then (c as int + 32) as char
    else if c == KelvinSign then 'k'
    else c
  }

  /** Python's `s.lower()`, character by character as `LowerChar` does it. */
  function Lower(s: string): (r: string)
    ensures |r| == |s|
    ensures forall i :: 0 <= i < |s| ==> r[i] == LowerChar(s[i])
  {
    seq(|s|, i requires 0 <= i < |s| => LowerChar(s[i]))
  }

  /** A character lowers to the lower-case ASCII letter `l` exactly when it is `l`, its capital, or, for `k`, the Kelvin sign. */
  lemma LowerCharTo(c: char, l: char)
    requires 'a' <= l <= 'z'
    ensures LowerChar(c) == l <==> c == l || c as int == l as int - 32 || (l == 'k' && c == KelvinSign)
  {
  }

  /** A string lowers to a lower-case ASCII word exactly when it spells that word, letter by letter, in either case (or with the Kelvin sign for `k`). */
  lemma LowerSpells(s: string, word: string)
    requires forall i :: 0 <= i < |word| ==> 'a' <= word[i] <= 'z'
    ensures Lower(s) == word <==>
              && |s| == |word|
              && forall i :: 0 <= i < |s| ==>
                   s[i] == word[i] || s[i] as int == word[i] as int - 32 || (word[i] == 'k' && s[i] == KelvinSign)
  {
    if |s| == |word| {
      forall i | 0 <= i < |s|
        ensures Lower(s)[i] == word[i] <==>
                  s[i] == word[i] || s[i] as int == word[i] as int - 32 || (word[i] == 'k' && s[i] == KelvinSign)
      {
        LowerCharTo(s[i], word[i]);
      }
    }
  }

  /** Python's `" ".join(parts)`. */
  function JoinSpaced(parts: seq<string>): (r: string)
    ensures parts == [] ==> r == []
    ensures |parts| == 1 ==> r == parts[0]
    ensures parts != [] ==> StartsWith(r, parts[0])
    decreases |parts|
  {
    if parts == [] then []
    else if |parts| == 1 then parts[0]
    else parts[0] + " " + JoinSpaced(parts[1..])
  }

  /** Joining two non-empty runs of parts in one go is joining each and putting one space between. */
  lemma {:induction false} JoinSpacedAppend(a: seq<string>, b: seq<string>)
    requires a != [] && b != []
    ensures JoinSpaced(a + b) == JoinSpaced(a) + " " + JoinSpaced(b)
    decreases |a|
  {
    assert (a + b)[0] == a[0];
    if |a| == 1 {
      assert (a + b)[1..] == b;
    } else {
      assert (a + b)[1..] == a[1..] + b;
      JoinSpacedAppend(a[1..], b);
    }
  }

  /** Two blank strings make a blank string. */
  lemma BlankConcat(a: string, b: string)
    requires Blank(a) && Blank(b)
    ensures Blank(a + b)
  {
    assert forall i :: 0 <= i < |a + b| ==> (a + b)[i] == if i < |a| then a[i] else b[i - |a|];
  }

  /** Leading whitespace in front of text that starts with a non-space is exactly what `TrimStart` removes. */
  lemma {:induction false} TrimStartPadded(pad: string, u: string)
    requires Blank(pad)
    requires u != [] && !IsSpace(u[0])
    ensures TrimStart(pad + u) == u
    decreases |pad|
  {
    if pad == [] {
      assert pad + u == u;
    } else {
      assert (pad + u)[0] == pad[0];
      assert (pad + u)[1..] == pad[1..] + u;
      TrimStartPadded(pad[1..], u);
    }
  }

  /** Trailing whitespace after text that ends with a non-space is exactly what `TrimEnd` removes. */
  lemma {:induction false} TrimEndPadded(u: string, pad: string)
    requires Blank(pad)
    requires u != [] && !IsSpace(u[|u| - 1])
    ensures TrimEnd(u + pad) == u
    decreases |pad|
  {
    if pad == [] {
      assert u + pad == u;
    } else {
      var t := u + pad;
      assert t[|t| - 1] == pad[|pad| - 1];
      assert t[..|t| - 1] == u + pad[..|pad| - 1];
      TrimEndPadded(u, pad[..|pad| - 1]);
    }
  }

  /** Stripping `left + s + right` with blank `left` and `right` gives back the trimmed `s`. */
  lemma StripPadded(s: string, left: string, right: string)
    requires Blank(left) && Blank(right) && Trimmed(s)
    ensures Strip(left + s + right) == s
  {
    if s == [] {
      assert left + s + right == left + right;
      BlankConcat(left, right);
    } else {
      assert left + s + right == left + (s + right);
      TrimStartPadded(left, s + right);
      TrimEndPadded(s, right);
    }
  }
}

=== FILE: track.dfy ===
/**
 The `/track` dialog of handlers.py: free text is sent to the language model and
 either every complete lift it yields is offered for confirmation, or the first
 item seeds a single lift whose missing slots are then asked for one by one.
 */
module Track {
  import opened Options
  import opened Text
  import opened Json
  import opened Lifts
  import opened Llm
  import opened Session

  // ---------------------------------------------------------------- slots

  /** `_get_fill_state` (handlers.py:180-181): the state that asks for a slot. */
  function FillState(f: Field): (s: State)
    ensures s != WaitingInput && s != Confirming && s != End
  {
    match f
    case Exercise => FillingExercise
    case Sets => FillingSets
    case Reps => FillingReps
    case Weight => FillingWeight
  }

  /** The slot a filling state asks for; none for the other states. */
  function FieldOf(s: State): Option<Field> {
    match s
    case FillingExercise => Some(Exercise)
    case FillingSets => Some(Sets)
    case FillingReps => Some(Reps)
    case FillingWeight => Some(Weight)
    case _ => None
  }

  /** The fill states are exactly the images of the four slots, one each. */
  lemma FillStateBijective(f: Field, g: Field, s: State)
    ensures FieldOf(FillState(f)) == Some(f)
    ensures FieldOf(s).Some? ==> FillState(FieldOf(s).value) == s
    ensures FillState(f) == FillState(g) ==> f == g
  {
  }

  /** The `user_data` key of a slot. */
  function Key(f: Field): string {
    match f
    case Exercise => "exercise"
    case Sets => "sets"
    case Reps => "reps"
    case Weight => "weight"
  }

  /** A value for one slot, tagged by the slot it fills. */
  datatype Entry = ExerciseEntry(name: string) | SetsEntry(sets: int) | RepsEntry(reps: int) | WeightEntry(weight: real)
  {
    function Slot(): Field {
      match this
      case ExerciseEntry(_) => Exercise
      case SetsEntry(_) => Sets
      case RepsEntry(_) => Reps
      case WeightEntry(_) => Weight
    }
  }

  /** The value a slot currently holds. */
  function SlotOf(s: Slots, f: Field): Option<Entry> {
    match f
    case Exercise => if s.exercise.Some? then Some(ExerciseEntry(s.exercise.value)) else None
    case Sets => if s.sets.Some? then Some(SetsEntry(s.sets.value)) else None
    case Reps => if s.reps.Some? then Some(RepsEntry(s.reps.value)) else None
    case Weight => if s.weight.Some? then Some(WeightEntry(s.weight.value)) else None
  }

  /** `data[key] = value`: one slot takes the entry, the other three keep theirs. */
  function Store(s: Slots, e: Entry): (r: Slots)
    ensures SlotOf(r, e.Slot()) == Some(e)
    ensures forall g :: g != e.Slot() ==> SlotOf(r, g) == SlotOf(s, g)
  {
    match e
    case ExerciseEntry(n) => s.(exercise := Some(n))
    case SetsEntry(n) => s.(sets := Some(n))
    case RepsEntry(n) => s.(reps := Some(n))
    case WeightEntry(w) => s.(weight := Some(w))
  }

  /** A slot counts as filled: a non-empty exercise name, or any number (handlers.py:164-171). */
  predicate Present(s: Slots, f: Field) {
    match f
    case Exercise => s.exercise.Some? && s.exercise.value != ""
    case Sets => s.sets.Some?
    case Reps => s.reps.Some?
    case Weight => s.weight.Some?
  }

  /** The slots in strictly increasing dialog order (so without repeats). */
  predicate Ordered(fs: seq<Field>) {
    forall i, j :: 0 <= i < j < |fs| ==> Rank(fs[i]) < Rank(fs[j])
  }

  /** The dialog order of the slots. */
  const FieldOrder: seq<Field> := [Exercise, Sets, Reps, Weight]

  /** The checks of handlers.py:164-171 run over `fs`: its unfilled slots, kept in the order of `fs`. */
  function MissingAmong(s: Slots, fs: seq<Field>): (r: seq<Field>)
    requires Ordered(fs)
    ensures forall f :: f in r <==> f in fs && !Present(s, f)
    ensures Ordered(r)
    decreases |fs|
  {
    if fs == [] then []
    else
      var rest := MissingAmong(s, fs[1..]);
      assert forall k :: 0 <= k < |rest| ==> Rank(fs[0]) < Rank(rest[k]) by {
        forall k | 0 <= k < |rest|
          ensures Rank(fs[0]) < Rank(rest[k])
        {
          assert rest[k] in fs[1..];
          var j :| 0 <= j < |fs[1..]| && fs[1..][j] == rest[k];
          assert fs[j + 1] == rest[k];
        }
      }
      (if Present(s, fs[0]) then [] else [fs[0]]) + rest
  }

  /** The `missing` list of handlers.py:163-171: the unfilled slots, in dialog order. */
  function Missing(s: Slots): (r: seq<Field>)
    ensures forall f :: f in r <==> !Present(s, f)
    ensures Ordered(r)
  {
    assert forall f :: f in FieldOrder by {
      forall f
        ensures f in FieldOrder
      {
        assert FieldOrder[Rank(f)] == f;
      }
    }
    MissingAmong(s, FieldOrder)
  }

  /** Two ordered lists with the same members start alike, and their tails have the same members. */
  lemma OrderedHeadsAgree(a: seq<Field>, b: seq<Field>)
    requires Ordered(a) && Ordered(b) && a != []
    requires forall f :: f in a <==> f in b
    ensures b != [] && a[0] == b[0]
    ensures forall f :: f in a[1..] <==> f in b[1..]
  {
    assert a[0] in b && b[0] in a;
    var i :| 0 <= i < |a| && a[i] == b[0];
    var j :| 0 <= j < |b| && b[j] == a[0];
    assert Rank(a[0]) <= Rank(a[i]) && Rank(b[0]) <= Rank(b[j]);
    forall f
      ensures f in a[1..] ==> f in b[1..]
    {
      if f in a[1..] {
        var k :| 1 <= k < |a| && a[k] == f;
        assert Rank(a[0]) < Rank(a[k]);
        assert f in a && f in b;
        var l :| 0 <= l < |b| && b[l] == f;
        assert b[1..][l - 1] == f;
      }
    }
    forall f
      ensures f in b[1..] ==> f in a[1..]
    {
      if f in b[1..] {
        var k :| 1 <= k < |b| && b[k] == f;
        assert Rank(b[0]) < Rank(b[k]);
        assert f in b && f in a;
        var l :| 0 <= l < |a| && a[l] == f;
        assert a[1..][l - 1] == f;
      }
    }
  }

  /** Membership and order fix a list of slots: `missing` is the only ordered list of the unfilled slots. */
  lemma {:induction false} OrderedUnique(a: seq<Field>, b: seq<Field>)
    requires Ordered(a) && Ordered(b)
    requires forall f :: f in a <==> f in b
    ensures a == b
    decreases |a|
  {
    if a == [] {
      assert forall k :: 0 <= k < |b| ==> b[k] in a;
    } else {
      OrderedHeadsAgree(a, b);
      OrderedUnique(a[1..], b[1..]);
      assert a == [a[0]] + a[1..] && b == [b[0]] + b[1..];
    }
  }

  /** Any ordered list of exactly the unfilled slots is `missing`. */
  lemma MissingExactly(s: Slots, fs: seq<Field>)
    requires Ordered(fs)
    requires forall f :: f in fs <==> !Present(s, f)
    ensures Missing(s) == fs
  {
    OrderedUnique(Missing(s), fs);
  }

  // ---------------------------------------------------------------- seeding

  /** The `conv(v)` of the seeding loop (and the exercise's `.strip()`): `None` where Python raises. */
  function Coerce(f: Field, v: JValue, lit: Literals): (r: Option<Entry>)
    ensures r.Some? ==> r.value.Slot() == f
  {
    match f
    case Exercise => if v.JStr? then Some(ExerciseEntry(Strip(v.s))) else None
    case Sets => (match PyInt(v, lit) case Some(n) => Some(SetsEntry(n)) case None => None)
    case Reps => (match PyInt(v, lit) case Some(n) => Some(RepsEntry(n)) case None => None)
    case Weight => match PyFloat(v, lit) case Some(w) => Some(WeightEntry(w)) case None => None
  }

  /** The value of a key is absent or converts: the seeding loop goes past it. */
  predicate PassesSeed(m: map<string, JValue>, f: Field, lit: Literals) {
    Get(m, Key(f)).JNull? || Coerce(f, Get(m, Key(f)), lit).Some?
  }

  /** The slot a seeding step leaves: the converted value, or the old one when the key is absent or the loop stopped earlier. */
  function SeededSlot(s: Slots, m: map<string, JValue>, f: Field, reached: bool, lit: Literals): Option<Entry> {
    if reached && !Get(m, Key(f)).JNull? && Coerce(f, Get(m, Key(f)), lit).Some?
    then Coerce(f, Get(m, Key(f)), lit)
    else SlotOf(s, f)
  }

  /**
   One turn of the loop of handlers.py:156-159: a `None` value is skipped, a value that
   converts is stored, and one that does not raises (`None` here), ending the loop.
   */
  function SeedStep(s: Slots, m: map<string, JValue>, f: Field, lit: Literals): (r: Option<Slots>)
    ensures r.None? <==> !PassesSeed(m, f, lit)
    ensures r.Some? ==> SlotOf(r.value, f) == SeededSlot(s, m, f, true, lit)
    ensures r.Some? ==> forall g :: g != f ==> SlotOf(r.value, g) == SlotOf(s, g)
  {
    var v := Get(m, Key(f));
    if v.JNull? then Some(s)
    else
      match Coerce(f, v, lit)
      case None => None
      case Some(e) => Some(Store(s, e))
  }

  /**
   Seeding from the first parsed item (handlers.py:151-161). A string exercise is stored
   stripped. Each number is stored when it converts and every number before it was absent
   or converted; the `try` around the whole loop means a failed conversion leaves that
   number and all later ones as they were. Nothing is range-checked.
   */
  function Seed(s: Slots, first: JValue, lit: Literals): (r: Slots)
    ensures !first.JObj? ==> r == s
    ensures first.JObj? ==>
              var m := first.fields;
              && SlotOf(r, Exercise) == (if Get(m, "exercise").JStr? then Coerce(Exercise, Get(m, "exercise"), lit) else SlotOf(s, Exercise))
              && SlotOf(r, Sets) == SeededSlot(s, m, Sets, true, lit)
              && SlotOf(r, Reps) == SeededSlot(s, m, Reps, PassesSeed(m, Sets, lit), lit)
              && SlotOf(r, Weight) == SeededSlot(s, m, Weight, PassesSeed(m, Sets, lit) && PassesSeed(m, Reps, lit), lit)
  {
    if !first.JObj? then s
    else
      var m := first.fields;
      SeededName(s, m, lit);
      SeededNumbers(s, m, lit);
      SeedNumbers(SeedName(s, m), m, lit)
  }

  /** The name slot after both seeding parts. */
  lemma SeededName(s: Slots, m: map<string, JValue>, lit: Literals)
    ensures SlotOf(SeedNumbers(SeedName(s, m), m, lit), Exercise)
            == (if Get(m, "exercise").JStr? then Coerce(Exercise, Get(m, "exercise"), lit) else SlotOf(s, Exercise))
  {
    var named := SeedName(s, m);
    assert SlotOf(SeedNumbers(named, m, lit), Exercise) == SlotOf(named, Exercise);
  }

  /** The number slots after both seeding parts: the name part does not touch them. */
  lemma SeededNumbers(s: Slots, m: map<string, JValue>, lit: Literals)
    ensures var r := SeedNumbers(SeedName(s, m), m, lit);
            && SlotOf(r, Sets) == SeededSlot(s, m, Sets, true, lit)
            && SlotOf(r, Reps) == SeededSlot(s, m, Reps, PassesSeed(m, Sets, lit), lit)
            && SlotOf(r, Weight) == SeededSlot(s, m, Weight, PassesSeed(m, Sets, lit) && PassesSeed(m, Reps, lit), lit)
  {
    var named := SeedName(s, m);
    SeededSlotFrame(named, s, m, Sets, true, lit);
    SeededSlotFrame(named, s, m, Reps, PassesSeed(m, Sets, lit), lit);
    SeededSlotFrame(named, s, m, Weight, PassesSeed(m, Sets, lit) && PassesSeed(m, Reps, lit), lit);
  }

  /** A seeding step that falls back to the old value gives the same result from two slot records that agree on that slot. */
  lemma SeededSlotFrame(s: Slots, t: Slots, m: map<string, JValue>, f: Field, reached: bool, lit: Literals)
    requires f != Exercise && SlotOf(s, f) == SlotOf(t, f)
    ensures SeededSlot(s, m, f, reached, lit) == SeededSlot(t, m, f, reached, lit)
  {
  }

  /** The name part of the seeding (handlers.py:154-155): a string exercise is stored stripped. */
  function SeedName(s: Slots, m: map<string, JValue>): (r: Slots)
    ensures Get(m, "exercise").JStr? ==> SlotOf(r, Exercise) == Some(ExerciseEntry(Strip(Get(m, "exercise").s)))
    ensures !Get(m, "exercise").JStr? ==> r == s
    ensures r.sets == s.sets && r.reps == s.reps && r.weight == s.weight
  {
    var ex := Get(m, "exercise");
    if ex.JStr? then s.(exercise := Some(Strip(ex.s))) else s
  }

  /** The number part of the seeding (handlers.py:156-161): the loop over `sets`, `reps`, `weight`. */
  function SeedNumbers(s: Slots, m: map<string, JValue>, lit: Literals): (r: Slots)
    ensures r.exercise == s.exercise
    ensures SlotOf(r, Sets) == SeededSlot(s, m, Sets, true, lit)
    ensures SlotOf(r, Reps) == SeededSlot(s, m, Reps, PassesSeed(m, Sets, lit), lit)
    ensures SlotOf(r, Weight) == SeededSlot(s, m, Weight, PassesSeed(m, Sets, lit) && PassesSeed(m, Reps, lit), lit)
  {
    match SeedStep(s, m, Sets, lit)
    case None => s
    case Some(u1) =>
      match SeedStep(u1, m, Reps, lit)
      case None => u1
      case Some(u2) =>
        match SeedStep(u2, m, Weight, lit)
        case None => u2
        case Some(u3) => u3
  }

  /** One bad number stops the seeding: with `sets` unconvertible, `reps` and `weight` stay unset whatever they hold. */
  lemma SeedStopsAtFailure(m: map<string, JValue>, lit: Literals)
    requires !Get(m, "sets").JNull? && PyInt(Get(m, "sets"), lit).None?
    ensures var r := Seed(NoSlots, JObj(m), lit);
            r.sets.None? && r.reps.None? && r.weight.None?
  {
    var named := SeedName(NoSlots, m);
    assert !PassesSeed(m, Sets, lit);
    assert SeedNumbers(named, m, lit) == named;
  }

  // ---------------------------------------------------------------- confirmation

  /**
   `_show_confirmation` (handlers.py:229-249), up to the summary text: the question
   counts the waiting candidates, or one for the manually filled lift.
   */
  function ShowConfirmation(ud: UserData): (r: Outcome)
    ensures r.data == ud && r.result == Returned(Confirming) && r.writes == []
    ensures |r.replies| == 1 && r.replies[0].ConfirmQuestion? && r.replies[0].count >= 1
    ensures HasPending(ud) ==> r.replies[0].count == |ud.pendingLifts.value|
    ensures !HasPending(ud) ==> r.replies[0].count == 1
  {
    var count := if HasPending(ud) then |ud.pendingLifts.value| else 1;
    Outcome(ud, Returned(Confirming), [ConfirmQuestion(count)], [])
  }

  // ---------------------------------------------------------------- free-text input

  /** The items the model's answer to a message decodes to. */
  function Parsed(message: string, env: Env): seq<JValue> {
    ParseLiftText(env.model, env.decode, Strip(message))
  }

  /** The lifts extracted from a message: the model's answer reduced to its complete lifts. */
  function Extracted(message: string, env: Env): seq<Lift> {
    ExtractCompleteLifts(JArr(Parsed(message, env)), env.lit)
  }

  /** The item the fallback seeds from: the first parsed item, or an empty object. */
  function FirstItem(parsed: seq<JValue>): JValue {
    if parsed != [] then parsed[0] else JObj(map[])
  }

  /**
   The end of `track_input` (handlers.py:163-177): `missing` lists the unfilled slots in
   dialog order, the cursor starts at zero and the first missing slot is asked for; with
   nothing missing, `missing[0]` raises.
   */
  function AskFirstMissing(ud: UserData): (r: Outcome)
    ensures r.writes == [] && r.data == ud.(missing := r.data.missing, missingIdx := 0)
    ensures forall f :: f in r.data.missing <==> !Present(ud.slots, f)
    ensures Ordered(r.data.missing)
    ensures r.data.missing == [] <==> r.result == Raised(MissingFieldIndex)
    ensures r.data.missing != [] ==>
              r.result == Returned(FillState(r.data.missing[0])) && r.replies == [FillPrompt(r.data.missing[0])]
  {
    var missing := Missing(ud.slots);
    var data := ud.(missing := missing, missingIdx := 0);
    if missing == [] then Outcome(data, Raised(MissingFieldIndex), [], [])
    else Outcome(data, Returned(FillState(missing[0])), [FillPrompt(missing[0])], [])
  }

  /**
   `track_input` (handlers.py:129-177). With at least one complete lift the candidates
   wait for confirmation and no slot is asked for; otherwise the slots are reset, seeded
   from the first item, and the first unfilled one is asked for. The follow-up keys are
   left alone.
   */
  function TrackInput(ud: UserData, message: string, env: Env): (r: Outcome)
    ensures r.writes == []
    ensures r.result.Returned? || r.result == Raised(MissingFieldIndex)
    ensures r.data == ud.(raw := Some(Strip(message)), pendingLifts := r.data.pendingLifts, slots := r.data.slots,
                          missing := r.data.missing, missingIdx := r.data.missingIdx)
    ensures Extracted(message, env) != [] ==>
              && r.result == Returned(Confirming)
              && r.data.pendingLifts == Some(Extracted(message, env))
              && r.data.slots == ud.slots
              && r.data.missing == ud.missing && r.data.missingIdx == ud.missingIdx
              && r.replies == [ConfirmQuestion(|Extracted(message, env)|)]
    ensures Extracted(message, env) == [] ==>
              && r.data.pendingLifts == None
              && r.data.slots == Seed(NoSlots, FirstItem(Parsed(message, env)), env.lit)
              && r.data.missingIdx == 0
              && (forall f :: f in r.data.missing <==> !Present(r.data.slots, f))
              && Ordered(r.data.missing)
              && (r.data.missing == [] <==> r.result == Raised(MissingFieldIndex))
              && (r.data.missing != [] ==>
                    r.result == Returned(FillState(r.data.missing[0])) && r.replies == [FillPrompt(r.data.missing[0])])
  {
    var text := Strip(message);
    var parsed := ParseLiftText(env.model, env.decode, text);
    var lifts := ExtractCompleteLifts(JArr(parsed), env.lit);
    var kept := ud.(raw := Some(text));
    if lifts != [] then ShowConfirmation(kept.(pendingLifts := Some(lifts)))
    else AskFirstMissing(kept.(pendingLifts := None, slots := Seed(NoSlots, FirstItem(parsed), env.lit)))
  }

  /** After seeding from an object the name is filled exactly when the object has a name. */
  lemma SeedNamePresent(m: map<string, JValue>, lit: Literals)
    ensures Present(Seed(NoSlots, JObj(m), lit), Exercise) <==> HasExerciseName(m)
  {
  }

  /** After seeding from an object the three numbers are filled exactly when all three convert. */
  lemma SeedNumbersPresent(m: map<string, JValue>, lit: Literals)
    ensures var r := Seed(NoSlots, JObj(m), lit);
            Present(r, Sets) && Present(r, Reps) && Present(r, Weight) <==> NumbersConvert(m, lit)
  {
    var r := Seed(NoSlots, JObj(m), lit);
    assert Present(r, Sets) <==> SlotOf(r, Sets).Some?;
    assert Present(r, Reps) <==> SlotOf(r, Reps).Some?;
    assert Present(r, Weight) <==> SlotOf(r, Weight).Some?;
  }

  /** Every slot is filled after seeding exactly when the item is an object with a name and three convertible numbers. */
  lemma SeedFillsAll(first: JValue, lit: Literals)
    ensures (forall f :: Present(Seed(NoSlots, first, lit), f)) <==>
              first.JObj? && HasExerciseName(first.fields) && NumbersConvert(first.fields, lit)
  {
    var r := Seed(NoSlots, first, lit);
    if first.JObj? {
      SeedNamePresent(first.fields, lit);
      SeedNumbersPresent(first.fields, lit);
      if Present(r, Exercise) && Present(r, Sets) && Present(r, Reps) && Present(r, Weight) {
        forall f
          ensures Present(r, f)
        {
          match f
          case Exercise =>
          case Sets =>
          case Reps =>
          case Weight =>
        }
      }
    } else {
      assert !Present(r, Exercise);
    }
  }

  /**
   The `missing[0]` failure happens exactly when nothing was extracted although the first
   item is an object with a name and three convertible numbers, so one of them is out of range.
   */
  lemma TrackInputFault(ud: UserData, message: string, env: Env)
    ensures var parsed := Parsed(message, env);
            TrackInput(ud, message, env).result.Raised? <==>
              && Extracted(message, env) == []
              && parsed != [] && parsed[0].JObj?
              && HasExerciseName(parsed[0].fields)
              && NumbersConvert(parsed[0].fields, env.lit)
    ensures var parsed := Parsed(message, env);
            TrackInput(ud, message, env).result.Raised? ==>
              var m := parsed[0].fields;
              !(CountInRange(PyInt(Get(m, "sets"), env.lit).value)
                && CountInRange(PyInt(Get(m, "reps"), env.lit).value)
                && WeightInRange(PyFloat(Get(m, "weight"), env.lit).value))
  {
    var parsed := Parsed(message, env);
    var r := TrackInput(ud, message, env);
    SeedFillsAll(FirstItem(parsed), env.lit);
    if Extracted(message, env) == [] {
      var slots := Seed(NoSlots, FirstItem(parsed), env.lit);
      assert r.result.Raised? <==> forall f :: Present(slots, f) by {
        assert r.result.Raised? <==> r.data.missing == [];
        assert r.data.missing == [] <==> forall f :: Present(slots, f) by {
          if r.data.missing != [] {
            assert !Present(slots, r.data.missing[0]);
          }
        }
      }
      if r.result.Raised? && parsed != [] {
        NothingExtractedRejectsFirst(parsed, env.lit);
      }
    }
  }

  // ---------------------------------------------------------------- filling one slot

  /** A slot value the dialog accepts: a non-empty name, a count in [1, 100], or a weight in (0, 2000]. */
  predicate ValidEntry(e: Entry) {
    match e
    case ExerciseEntry(n) => n != "" && Trimmed(n)
    case SetsEntry(n) => CountInRange(n)
    case RepsEntry(n) => CountInRange(n)
    case WeightEntry(w) => WeightInRange(w)
  }

  /** The `parse_fn` lambdas of handlers.py:184-197: the stripped text, or its `int`/`float`; `None` where Python raises. */
  function ParseFill(f: Field, message: string, lit: Literals): (r: Option<Entry>)
    ensures r.Some? ==> r.value.Slot() == f
    ensures f == Exercise ==> r == Some(ExerciseEntry(Strip(message)))
  {
    var t := Strip(message);
    match f
    case Exercise => Some(ExerciseEntry(t))
    case Sets => (match lit.parseInt(t) case Some(n) => Some(SetsEntry(n)) case None => None)
    case Reps => (match lit.parseInt(t) case Some(n) => Some(RepsEntry(n)) case None => None)
    case Weight => match lit.parseFloat(t) case Some(w) => Some(WeightEntry(w)) case None => None
  }

  /**
   An answer typed while filling converts as the same value met while seeding would: the
   stripped text is `int`- or `float`-parsed for a number, and kept as the name otherwise.
   */
  lemma ParseFillAsSeed(f: Field, message: string, lit: Literals)
    ensures ParseFill(f, message, lit) == Coerce(f, JStr(Strip(message)), lit)
  {
    var t := Strip(message);
    var c := Coerce(f, JStr(t), lit);
    ParseFillNumbers(f, message, lit);
    match f
    case Exercise =>
      assert Strip(t) == t;
    case Sets =>
      assert c.Some? <==> lit.parseInt(t).Some?;
      assert c.Some? ==> c.value == SetsEntry(lit.parseInt(t).value);
    case Reps =>
      assert c.Some? <==> lit.parseInt(t).Some?;
      assert c.Some? ==> c.value == RepsEntry(lit.parseInt(t).value);
    case Weight =>
      assert c.Some? <==> lit.parseFloat(t).Some?;
      assert c.Some? ==> c.value == WeightEntry(lit.parseFloat(t).value);
  }

  /** A typed count is stored exactly when `int` parses the stripped text, and a weight when `float` does, as the parsed value. */
  lemma ParseFillNumbers(f: Field, message: string, lit: Literals)
    ensures f == Sets || f == Reps ==>
              && (ParseFill(f, message, lit).Some? <==> lit.parseInt(Strip(message)).Some?)
              && (ParseFill(f, message, lit).Some? ==>
                    ParseFill(f, message, lit).value ==
                      if f == Sets then SetsEntry(lit.parseInt(Strip(message)).value)
                      else RepsEntry(lit.parseInt(Strip(message)).value))
    ensures f == Weight ==>
              && (ParseFill(f, message, lit).Some? <==> lit.parseFloat(Strip(message)).Some?)
              && (ParseFill(f, message, lit).Some? ==>
                    ParseFill(f, message, lit).value == WeightEntry(lit.parseFloat(Strip(message)).value))
  {
  }

  /** The reply that rejects an out-of-range value for a slot. */
  function RangeReply(f: Field): Reply {
    match f
    case Exercise => InvalidExercise
    case Sets => InvalidSetsReps
    case Reps => InvalidSetsReps
    case Weight => InvalidWeight
  }

  /** The verdict on one answer: the entry to store, or the reply that asks again. */
  datatype Verdict = Accept(entry: Entry) | Reject(reply: Reply)

  /**
   The checks of handlers.py:202-217: a parse failure gets the generic reply (asking for
   a number, since only numbers can fail to parse); a blank name, or a number out of its
   range, gets that slot's own reply.
   */
  function CheckFill(f: Field, message: string, lit: Literals): (r: Verdict)
    ensures r.Accept? <==> ParseFill(f, message, lit).Some? && ValidEntry(ParseFill(f, message, lit).value)
    ensures r.Accept? ==> r.entry == ParseFill(f, message, lit).value && r.entry.Slot() == f
    ensures r.Reject? && ParseFill(f, message, lit).None? ==> r.reply == InvalidGeneric(ANumber)
    ensures r.Reject? && ParseFill(f, message, lit).Some? ==> r.reply == RangeReply(f)
  {
    var p := ParseFill(f, message, lit);
    if p.None? then Reject(InvalidGeneric(if f == Exercise then SomeText else ANumber))
    else
      ParsedNameTrimmed(f, message, lit);
      CheckedMeansValid(p.value);
      if PassesCheck(p.value) then Accept(p.value) else Reject(RangeReply(f))
  }

  /** A blank name is rejected with the exercise reply (handlers.py:202-204). */
  lemma BlankNameReply(message: string, lit: Literals)
    requires Blank(message)
    ensures CheckFill(Exercise, message, lit) == Reject(InvalidExercise)
  {
    StripEmpty(message);
    assert ParseFill(Exercise, message, lit) == Some(ExerciseEntry([]));
  }

  /** A count outside [1, 100] is rejected with the sets/reps reply, for both slots (handlers.py:205-207). */
  lemma CountRangeReply(message: string, lit: Literals)
    requires lit.parseInt(Strip(message)).Some? && !CountInRange(lit.parseInt(Strip(message)).value)
    ensures CheckFill(Sets, message, lit) == Reject(InvalidSetsReps)
    ensures CheckFill(Reps, message, lit) == Reject(InvalidSetsReps)
  {
    var n := lit.parseInt(Strip(message)).value;
    assert ParseFill(Sets, message, lit) == Some(SetsEntry(n));
    assert ParseFill(Reps, message, lit) == Some(RepsEntry(n));
  }

  /** A weight outside (0, 2000] is rejected with the weight reply (handlers.py:208-210). */
  lemma WeightRangeReply(message: string, lit: Literals)
    requires lit.parseFloat(Strip(message)).Some? && !WeightInRange(lit.parseFloat(Strip(message)).value)
    ensures CheckFill(Weight, message, lit) == Reject(InvalidWeight)
  {
    assert ParseFill(Weight, message, lit) == Some(WeightEntry(lit.parseFloat(Strip(message)).value));
  }

  /** The tests of handlers.py:204-217 on a parsed value, as the code writes them. */
  predicate PassesCheck(e: Entry) {
    match e
    case ExerciseEntry(n) => n != ""
    case SetsEntry(n) => !(n < 1 || n > 100)
    case RepsEntry(n) => !(n < 1 || n > 100)
    case WeightEntry(w) => !(w <= 0.0 || w > 2000.0)
  }

  /** A parsed name is stripped, so trimmed. */
  lemma ParsedNameTrimmed(f: Field, message: string, lit: Literals)
    ensures var p := ParseFill(f, message, lit);
            p.Some? && p.value.ExerciseEntry? ==> Trimmed(p.value.name)
  {
  }

  /** For a trimmed name, and for every number, the code's tests accept exactly the valid entries. */
  lemma CheckedMeansValid(e: Entry)
    requires e.ExerciseEntry? ==> Trimmed(e.name)
    ensures PassesCheck(e) <==> ValidEntry(e)
  {
  }

  /**
   `_track_fill_field` (handlers.py:200-226). A rejected answer changes nothing and asks
   for the same slot again. An accepted one is stored in its slot, the other slots keep
   their values, and the cursor moves on by exactly one, to the next missing slot or,
   past the end of `missing`, to the confirmation.
   */
  function FillField(ud: UserData, f: Field, message: string, lit: Literals): (r: Outcome)
    ensures r.writes == []
    ensures CheckFill(f, message, lit).Reject? ==>
              r.data == ud && r.result == Returned(FillState(f)) && r.replies == [CheckFill(f, message, lit).reply]
    ensures CheckFill(f, message, lit).Accept? ==>
              && SlotOf(r.data.slots, f) == Some(CheckFill(f, message, lit).entry)
              && (forall g :: g != f ==> SlotOf(r.data.slots, g) == SlotOf(ud.slots, g))
              && r.data == ud.(slots := r.data.slots, missingIdx := ud.missingIdx + 1)
              && (ud.missingIdx + 1 < |ud.missing| ==>
                    r.result == Returned(FillState(ud.missing[ud.missingIdx + 1]))
                    && r.replies == [FillPrompt(ud.missing[ud.missingIdx + 1])])
              && (ud.missingIdx + 1 >= |ud.missing| ==>
                    r.result == Returned(Confirming)
                    && r.replies == [ConfirmQuestion(if HasPending(ud) then |ud.pendingLifts.value| else 1)])
  {
    match CheckFill(f, message, lit)
    case Reject(reply) => Outcome(ud, Returned(FillState(f)), [reply], [])
    case Accept(e) =>
      var idx := ud.missingIdx + 1;
      var stored := ud.(slots := Store(ud.slots, e), missingIdx := idx);
      if idx < |ud.missing| then Outcome(stored, Returned(FillState(ud.missing[idx])), [FillPrompt(ud.missing[idx])], [])
      else ShowConfirmation(stored)
  }

  // ---------------------------------------------------------------- saving

  const CancelPayload := "confirm_cancel"

  /** The loop of handlers.py:266-267: one insert per candidate, in order. */
  function SaveAll(userId: int, lifts: seq<Lift>): (r: seq<DbWrite>)
    ensures |r| == |lifts|
    ensures forall k :: 0 <= k < |lifts| ==> r[k] == InsertLift(userId, lifts[k])
  {
    if lifts == [] then [] else [InsertLift(userId, lifts[0])] + SaveAll(userId, lifts[1..])
  }

  /** The manually filled lift, when all four slots hold a value. */
  function ManualLift(s: Slots): Option<Lift> {
    if s.exercise.Some? && s.sets.Some? && s.reps.Some? && s.weight.Some?
    then Some(Lift(s.exercise.value, s.sets.value, s.reps.value, s.weight.value))
    else None
  }

  /**
   `track_confirm_button` (handlers.py:252-286). Cancel clears the session and ends the
   dialog without a write. Any other button saves the waiting candidates, or the manual
   lift, clears the session and goes back to waiting for input.
   */
  function ConfirmButton(ud: UserData, payload: string, userId: int): (r: Outcome)
    ensures payload == CancelPayload ==>
              r.data == Cleared && r.result == Returned(End) && r.writes == [] && r.replies == [TrackCancelled]
    ensures payload != CancelPayload && HasPending(ud) ==>
              var lifts := ud.pendingLifts.value;
              && r.data == Cleared && r.result == Returned(WaitingInput)
              && |r.writes| == |lifts|
              && (forall k :: 0 <= k < |lifts| ==> r.writes[k] == InsertLift(userId, lifts[k]))
              && |r.replies| == 2 && r.replies[1] == ContinuePrompt
              && (r.replies[0].SavedMulti? <==> |lifts| > 1)
              && (r.replies[0].SavedMulti? ==> r.replies[0].count == |lifts|)
              && (|lifts| == 1 ==> r.replies[0] == Saved(lifts[0]))
    ensures payload != CancelPayload && !HasPending(ud) && ManualLift(ud.slots).Some? ==>
              && r.data == Cleared && r.result == Returned(WaitingInput)
              && r.writes == [InsertLift(userId, ManualLift(ud.slots).value)]
              && r.replies == [Saved(ManualLift(ud.slots).value), ContinuePrompt]
    ensures r.result.Raised? <==> payload != CancelPayload && !HasPending(ud) && ManualLift(ud.slots).None?
    ensures r.result.Raised? ==> r.data == ud && r.writes == []
  {
    if payload == CancelPayload then Outcome(Cleared, Returned(End), [TrackCancelled], [])
    else if HasPending(ud) then
      var lifts := ud.pendingLifts.value;
      var msg := if |lifts| > 1 then SavedMulti(|lifts|) else Saved(lifts[0]);
      Outcome(Cleared, Returned(WaitingInput), [msg, ContinuePrompt], SaveAll(userId, lifts))
    else
      match ManualLift(ud.slots)
      case None => Outcome(ud, Raised(UnfilledField), [], [])
      case Some(l) => Outcome(Cleared, Returned(WaitingInput), [Saved(l), ContinuePrompt], [InsertLift(userId, l)])
  }

  // ---------------------------------------------------------------- the dialog invariant

  /**
   While a slot is being asked for: no candidates wait, the cursor points at that slot in
   `missing`, `missing` is ordered, the unfilled slots are exactly those from the cursor on,
   and every slot the dialog has filled holds an accepted value.
   */
  predicate Filling(ud: UserData, f: Field) {
    && !HasPending(ud)
    && ud.missingIdx < |ud.missing|
    && ud.missing[ud.missingIdx] == f
    && Ordered(ud.missing)
    && (forall g :: Present(ud.slots, g) <==> g !in ud.missing[ud.missingIdx..])
    && (forall j :: 0 <= j < ud.missingIdx ==>
          SlotOf(ud.slots, ud.missing[j]).Some? && ValidEntry(SlotOf(ud.slots, ud.missing[j]).value))
  }

  /** At the confirmation: complete candidates wait, or no candidates and every slot filled. */
  predicate ReadyToConfirm(ud: UserData) {
    if HasPending(ud) then forall k :: 0 <= k < |ud.pendingLifts.value| ==> IsCompleteLift(ud.pendingLifts.value[k])
    else forall g :: Present(ud.slots, g)
  }

  /** What each state of the dialog may assume about the session. */
  predicate Inv(ud: UserData, s: State) {
    match s
    case FillingExercise => Filling(ud, Exercise)
    case FillingSets => Filling(ud, Sets)
    case FillingReps => Filling(ud, Reps)
    case FillingWeight => Filling(ud, Weight)
    case Confirming => ReadyToConfirm(ud)
    case _ => true
  }

  /** The invariant of a filling state is that of its slot. */
  lemma InvOfFillState(ud: UserData, f: Field)
    ensures Inv(ud, FillState(f)) <==> Filling(ud, f)
  {
  }

  /** `track_input` leads into a state whose invariant holds. */
  lemma TrackInputEstablishes(ud: UserData, message: string, env: Env)
    ensures var r := TrackInput(ud, message, env);
            r.result.Returned? ==> Inv(r.data, r.result.state)
  {
    var r := TrackInput(ud, message, env);
    if Extracted(message, env) == [] && r.data.missing != [] {
      FirstMissingFilling(r.data);
    }
  }

  /** With the cursor at the start of an ordered `missing` that lists exactly the unfilled slots, its first slot is being filled. */
  lemma FirstMissingFilling(d: UserData)
    requires !HasPending(d) && d.missingIdx == 0 && d.missing != [] && Ordered(d.missing)
    requires forall f :: f in d.missing <==> !Present(d.slots, f)
    ensures Inv(d, FillState(d.missing[0]))
  {
    assert d.missing[0..] == d.missing;
    InvOfFillState(d, d.missing[0]);
  }

  /**
   Storing an accepted value for the slot under the cursor and moving the cursor on keeps the
   invariant: the next missing slot is being asked for, or, past the end, every slot is filled.
   */
  lemma AcceptKeepsFilling(ud: UserData, f: Field, e: Entry)
    requires Filling(ud, f) && e.Slot() == f && ValidEntry(e)
    ensures var d := ud.(slots := Store(ud.slots, e), missingIdx := ud.missingIdx + 1);
            && (d.missingIdx < |d.missing| ==> Filling(d, d.missing[d.missingIdx]))
            && (d.missingIdx >= |d.missing| ==> ReadyToConfirm(d))
  {
    var d := ud.(slots := Store(ud.slots, e), missingIdx := ud.missingIdx + 1);
    var i := ud.missingIdx;
    var ms := ud.missing;
    StoredPresence(ud.slots, e);
    AfterCursor(ms, i);
    assert forall g :: Present(d.slots, g) <==> g !in ms[i + 1..];
    AcceptedBefore(ud, f, e);
    if i + 1 >= |ms| {
      assert ms[i + 1..] == [];
    }
  }

  /** A stored valid entry fills its slot and leaves the other slots filled or unfilled as before. */
  lemma StoredPresence(s: Slots, e: Entry)
    requires ValidEntry(e)
    ensures Present(Store(s, e), e.Slot())
    ensures forall g :: g != e.Slot() ==> (Present(Store(s, e), g) <==> Present(s, g))
  {
    forall g | g != e.Slot()
      ensures Present(Store(s, e), g) <==> Present(s, g)
    {
      assert SlotOf(Store(s, e), g) == SlotOf(s, g);
    }
  }

  /** In an ordered list, the slot at the cursor is followed by the rest and does not come again. */
  lemma AfterCursor(ms: seq<Field>, i: nat)
    requires Ordered(ms) && i < |ms|
    ensures ms[i..] == [ms[i]] + ms[i + 1..]
    ensures ms[i] !in ms[i + 1..]
  {
    forall k | i + 1 <= k < |ms|
      ensures ms[k] != ms[i]
    {
      assert Rank(ms[i]) < Rank(ms[k]);
    }
  }

  /** After an accepted value is stored under the cursor, every slot up to and including the cursor holds an accepted value. */
  lemma AcceptedBefore(ud: UserData, f: Field, e: Entry)
    requires Filling(ud, f) && e.Slot() == f && ValidEntry(e)
    ensures var s := Store(ud.slots, e);
            forall j :: 0 <= j < ud.missingIdx + 1 ==>
              SlotOf(s, ud.missing[j]).Some? && ValidEntry(SlotOf(s, ud.missing[j]).value)
  {
    var s := Store(ud.slots, e);
    var ms := ud.missing;
    forall j | 0 <= j < ud.missingIdx + 1
      ensures SlotOf(s, ms[j]).Some? && ValidEntry(SlotOf(s, ms[j]).value)
    {
      if j < ud.missingIdx {
        assert Rank(ms[j]) < Rank(ms[ud.missingIdx]);
      }
    }
  }

  /** Filling a slot never raises, and it leads into a state whose invariant holds. */
  lemma FillPreserves(ud: UserData, f: Field, message: string, lit: Literals)
    requires Filling(ud, f)
    ensures var r := FillField(ud, f, message, lit);
            r.result.Returned? && Inv(r.data, r.result.state)
  {
    var r := FillField(ud, f, message, lit);
    var v := CheckFill(f, message, lit);
    if v.Reject? {
      InvOfFillState(ud, f);
    } else {
      AcceptKeepsFilling(ud, f, v.entry);
      if ud.missingIdx + 1 < |ud.missing| {
        InvOfFillState(r.data, ud.missing[ud.missingIdx + 1]);
      }
    }
  }

  /** At a confirmation the invariant holds for, saving never raises. */
  lemma ConfirmNeverFaults(ud: UserData, payload: string, userId: int)
    requires ReadyToConfirm(ud)
    ensures ConfirmButton(ud, payload, userId).result.Returned?
  {
    if !HasPending(ud) {
      assert Present(ud.slots, Exercise) && Present(ud.slots, Sets) && Present(ud.slots, Reps) && Present(ud.slots, Weight);
    }
  }

  /** The count the question shows is the number of records a save writes. */
  lemma ConfirmCountMatchesInserts(ud: UserData, userId: int)
    requires ReadyToConfirm(ud)
    ensures |ConfirmButton(ud, "confirm_save", userId).writes| == ShowConfirmation(ud).replies[0].count
  {
    if !HasPending(ud) {
      assert Present(ud.slots, Exercise) && Present(ud.slots, Sets) && Present(ud.slots, Reps) && Present(ud.slots, Weight);
    }
  }
}
